=== FILE: README.md ===
# Report viewer controller: a Dafny model

`reportviewer.js` is the browser-side controller of the Pentaho report viewer.
It fetches a report's parameter definition, shows the prompt panel, and builds
the report URL from URL parameters and panel values. It also moves date
values between the panel and the ISO-8601 transport format of the reporting
engine. Most of the file drives widgets. This project models the parts that
are plain rules over strings, maps and integers:

- common.dfy: module `Common`. It holds `Option` (JavaScript's
  `undefined`/`null`), `Outcome` (a call that returns or throws), and the two
  JavaScript errors the code can raise on its own.
- js_object.dfy: module `JsObject`. A JavaScript object is an ordered list
  of properties in enumeration order, which is the order `$.each` visits them.
  The module has `obj[k]`, `obj[k] = v`, `delete obj[k]`, and
  `$.extend(target, source)`, which skips `undefined` source values as jQuery
  does.
- module_readiness.dfy: module `ModuleReadiness`. It models `moduleLoaded`,
  the readiness hash of the required modules and the decision to call
  `_load`.
- page_control.dfy: module `PageControl`. It models `refreshPageControl` and
  `pageChanged`: the 0-based server page is clamped, shown 1-based, and sent
  back 0-based.
- query_string.dfy: module `QueryString`. It models `getUrlParameters`: the
  pair expression `([^&=]+)=?([^&]*)`, the `+`-to-space step, and the
  grouping of repeated names into arrays. It also models `getLocale`.
- report_url.dfy: module `ReportUrl`. It covers the option merge of
  `_updateReport` and `fetchParameterDefinition`, the serialisation of the
  options into the report URL, and `submitReport`/`scheduleReport`.
- login_detection.dfy: module `LoginDetection`. It covers
  `isLoginPageContent` and `handleSessionTimeout`.
- parameter_normalization.dfy: module `ParameterNormalization`. It covers
  `_formatTypeMap`, `createDataTransportFormatter`'s choice of formatter, and
  `normalizeParameterValue`.
- date_transport.dfy: module `DateTransport`. It covers `_initDateFormatters`,
  pattern and cache selection in the transport formatter's `format`, the order
  of parsers in its `parse` and what it returns, and the truncation in
  `parseDateWithoutTimezoneInfo`.

The model does not implement the following functions. Each one is a
function-typed parameter:

- `encodeURIComponent` (`encode`)
- `decodeURIComponent` (`uriDecode`/`decode`)
- `convertTimeStampToTimeZone` (`convert`)
- `ReportViewer.timeutil.getOffsetAsString` (`offsetOf`)

A date formatter is known only by the pattern string it was created with. The
URL round-trip lemmas rest on the predicate `ReportUrl.UriCodec`, which says:

- the encoder never emits `&`, `=` or `+`;
- it keeps a string empty exactly when it was empty;
- decoding undoes it.

`ReportUrl.UriCodecConsistent` shows that these assumptions can all hold at
once, using a minimal percent-escaping codec.

Three points about the code as it stands:

- A `+` at the start of a timezone hint breaks the hint test; see Findings.
- `parse` never returns its closing `''`; unparseable text gives an invalid
  date instead. See Findings.
- In `getLocale`, a `locale` named more than twice in the URL becomes an
  array with no `substring` method, so the call throws. `QueryString.GetLocale`
  models that `TypeError`.

## Model

| member | source | states |
|---|---|---|
| JsObject.Put | package-res/reportviewer/reportviewer.js:355-359 | Assigning a property binds it and leaves every other property unchanged. An existing property keeps its place in the enumeration order; a new one goes last. Keys stay unique. |
| JsObject.Remove | package-res/reportviewer/reportviewer.js:311 | `delete` removes the property, leaves all others unchanged, and keeps keys unique. |
| JsObject.Extend | package-res/reportviewer/reportviewer.js:354 | After `$.extend(target, source)`, each property reads as the source value when that value is not `undefined`, and otherwise as the target value. No key is invented, and keys stay unique. |
| ModuleReadiness.InitialReadiness | package-res/reportviewer/reportviewer.js:10-16 | The lazily created hash holds exactly the required modules, each marked not loaded, with the first listed module first. |
| ModuleReadiness.ModuleLoaded | package-res/reportviewer/reportviewer.js:9-27 | The reporting module is marked loaded and every other entry is unchanged. The key set gains only that name. `_load` fires exactly when every entry of the hash reads loaded afterwards. |
| ModuleReadiness.ReplayContents | package-res/reportviewer/reportviewer.js:9-17 | After a sequence of reports, a module reads loaded exactly when it has reported. Other required modules read not loaded, and no other key exists. |
| ModuleReadiness.FiresExactlyWhenAllReported | package-res/reportviewer/reportviewer.js:5-27 | A report fires `_load` exactly when every required module has reported by then, whatever the order. |
| ModuleReadiness.EverythingLoadedAsWritten | package-res/reportviewer/reportviewer.js:19-23 | The loop as written, with `$.each` stopping on a `false` callback result, returns the first entry's flag when started from `true`. Once the flag is false it stays false. |
| ModuleReadiness.ModuleLoadedAsWritten | package-res/reportviewer/reportviewer.js:9-27 | As written: the module is marked loaded, other entries are unchanged, and `_load` fires exactly when the first entry of the hash is loaded. That is: when the hash was empty, when the reporting module is its first entry, or when its first entry had already reported. |
| ModuleReadiness.FirstReportFiresForFirstModule | package-res/reportviewer/reportviewer.js:9-27 | As written, the first report of all invokes `_load` exactly when it comes from the first listed module, whatever the other modules' state. |
| ModuleReadiness.LoadFiresBeforeDojo | package-res/reportviewer/reportviewer.js:3-27 | With `['formatter', 'dojo']`, a first report from `formatter` fires `_load` as written while `dojo` is not loaded. The intended test does not fire. |
| PageControl.ClampPage | package-res/reportviewer/reportviewer.js:97 | The accepted page is at least 0. When `total` ≥ 1 it is at most `total-1`, and it equals the server's page exactly when that page is in range. Pages below range become 0 and pages above become `total-1`. |
| PageControl.RefreshPageControl | package-res/reportviewer/reportviewer.js:85-104 | Without pagination the control shows page 1 of 1 and `accepted-page` is not set. With pagination the count is `total`, `accepted-page` is exactly `ClampPage(page, total)`, and the control shows it plus one (within 1..total when `total` ≥ 1). |
| PageControl.PageChanged | package-res/reportviewer/reportviewer.js:110-113 | The accepted page sent back is one less than the page number picked. |
| PageControl.DisplayThenChange | package-res/reportviewer/reportviewer.js:97-111 | Picking the number shown asks for the page that was accepted. |
| PageControl.ChangeThenDisplay | package-res/reportviewer/reportviewer.js:97-111 | Picking page `n` of `total`, with the server echoing the page back, shows `n` again. |
| QueryString.NameRun | package-res/reportviewer/reportviewer.js:271 | The name group is the longest prefix without `&` or `=`. |
| QueryString.ValueRun | package-res/reportviewer/reportviewer.js:271 | The value group is the longest prefix without `&`. |
| QueryString.RawPairs | package-res/reportviewer/reportviewer.js:271-275 | Every match has a non-empty name free of `&` and `=`, and a value free of `&`. |
| QueryString.PlusToSpace | package-res/reportviewer/reportviewer.js:270-272 | Every `+` becomes a space and every other character is kept, so no `+` remains. |
| QueryString.AddParam | package-res/reportviewer/reportviewer.js:279-284 | One loop turn appends the value to the name's values: a first value is a string and a repeated one makes an array. Other names are unchanged. |
| QueryString.GroupPairs | package-res/reportviewer/reportviewer.js:275-285 | The loop yields a table of strings and arrays with unique keys, whose keys are exactly the names that occur in the pairs. |
| QueryString.Decode | package-res/reportviewer/reportviewer.js:272 | Every `+` is read as a space before URI decoding, so text without `+` is just URI-decoded. |
| QueryString.GroupPairsSpec | package-res/reportviewer/reportviewer.js:275-286 | After the loop, each name maps to its values in order of appearance: absent if none, a string if one, an array if several. |
| QueryString.GetUrlParameters | package-res/reportviewer/reportviewer.js:267-287 | A name seen once maps to its decoded value. A name seen n > 1 times maps to the array of all n values in order. A name never seen is absent. |
| QueryString.GetLocale | package-res/reportviewer/reportviewer.js:235-241 | A single `locale` value is cut to its first two characters. An absent one stays absent and two values come back as the array. More than two values throw a `TypeError`. |
| QueryString.ParseJoined | package-res/reportviewer/reportviewer.js:271-275 | Pairs joined with `&` as `name=value` read back as exactly the same pairs in order, for pairs the expression can produce. |
| ReportUrl.ReportOptions | package-res/reportviewer/reportviewer.js:353-363 | Panel values override URL parameters and `renderMode` is the requested mode. `name` is its own value if set, else `action`. `::session` is absent, keys stay unique, and no other key appears. |
| ReportUrl.MergedWithMode | package-res/reportviewer/reportviewer.js:353-355 | Every property other than `renderMode` reads as the panel value when that is defined, and otherwise as the URL parameter. `renderMode` is the requested mode. Keys stay unique, and only those two sources and `renderMode` contribute keys. |
| ReportUrl.WithName | package-res/reportviewer/reportviewer.js:358-360 | `name` keeps its value when set, otherwise it takes `action`'s. No other property changes, and keys stay unique. |
| JsObject.CopyProperty | package-res/reportviewer/reportviewer.js:354 | One property copied by `$.extend` overrides the target unless its value is `undefined`. Nothing else changes. |
| ReportUrl.ParameterRequestOptions | package-res/reportviewer/reportviewer.js:294-311 | The call throws exactly for user input without a panel. Otherwise `renderMode` is `PARAMETER` for user input that may not auto-submit and `XML` otherwise. Panel values override URL parameters and `::session` is absent. |
| ReportUrl.ItemPairs | package-res/reportviewer/reportviewer.js:377-381 | An array contributes pairs under its own key with non-empty values only. |
| ReportUrl.EntryPairs | package-res/reportviewer/reportviewer.js:372-385 | A property contributes only pairs under its own key with non-empty values. |
| ReportUrl.QueryPairs | package-res/reportviewer/reportviewer.js:365-387 | Every emitted pair has a non-empty value and names a property of the options. |
| ReportUrl.QueryPairsForKey | package-res/reportviewer/reportviewer.js:365-387 | The values emitted for a property are exactly its non-empty strings in order. `null` and `undefined` give none; an array gives one per non-empty element. |
| ReportUrl.QueryText | package-res/reportviewer/reportviewer.js:365-387 | The query is empty exactly when no option has a non-empty value to send. |
| ReportUrl.QueryReadsBack | package-res/reportviewer/reportviewer.js:365-387 | The serialised query, read back through `getUrlParameters`, gives each property its non-empty values: absent, a string, or an array. |
| ReportUrl.UpdateReport | package-res/reportviewer/reportviewer.js:348-390 | The frame is blank exactly when a prompt is needed. Otherwise it gets a URL under `/pentaho/content/reporting?`. |
| ReportUrl.ReportUrlReadsBack | package-res/reportviewer/reportviewer.js:348-390 | When every URL and panel property name is non-empty, the report URL's query, read back by name, gives each merged option its non-empty values: absent, a string, or an array. |
| ReportUrl.SessionNeverSent | package-res/reportviewer/reportviewer.js:362-363 | When every URL and panel property name is non-empty, `::session` never reads back from the report URL. |
| ReportUrl.RenderModeSent | package-res/reportviewer/reportviewer.js:355 | When every URL and panel property name is non-empty, a non-empty render mode reads back from the report URL as given. |
| ReportUrl.SubmitAndScheduleModes | package-res/reportviewer/reportviewer.js:392-398 | When every URL and panel property name is non-empty, the report URL of `submitReport` reads back `renderMode=REPORT` and that of `scheduleReport` reads back `renderMode=SUBSCRIBE`. |
| ReportUrl.SubmitReport | package-res/reportviewer/reportviewer.js:392-394 | Submitting produces a report URL exactly when no prompt is needed. |
| ReportUrl.ScheduleReport | package-res/reportviewer/reportviewer.js:396-398 | Scheduling produces a report URL exactly when no prompt is needed. |
| LoginDetection.IndexOf | package-res/reportviewer/reportviewer.js:418 | Returns the first position where the pattern occurs, or -1 exactly when it does not occur. |
| LoginDetection.IsLoginPageContent | package-res/reportviewer/reportviewer.js:417-423 | Content is the login page exactly when it contains `j_spring_security_check`. |
| LoginDetection.HandleSessionTimeout | package-res/reportviewer/reportviewer.js:406-412 | A timeout is reported exactly for login-page content. |
| ParameterNormalization.TransportFormatterKind | package-res/reportviewer/reportviewer.js:452-466 | A type gets a transport formatter exactly when it is in `_formatTypeMap`. The four Java date types get the date formatter, and only they and `date` do. |
| ParameterNormalization.SwitchMatchesTypeMap | package-res/reportviewer/reportviewer.js:485-502 | The types the normalisation `switch` treats as dates are the date types of `_formatTypeMap` other than the generic `date`. |
| ParameterNormalization.ElementType | package-res/reportviewer/reportviewer.js:625-629 | A type of the form `[Lx;` (x non-empty, without `;`) becomes `x`. Any other type is kept. |
| ParameterNormalization.ArrayTypeRoundTrip | package-res/reportviewer/reportviewer.js:626-628 | Wrapping a name as `[Lx;` and stripping it gives the name back. |
| ParameterNormalization.Normalize | package-res/reportviewer/reportviewer.js:620-664 | A null value or type gives null. Non-date types, the server or unset zone, the client zone and a value ending with a non-blank hint all keep the value. Only the remaining fixed-zone case converts. The hint is set only when none existed, in the server or unset zone, from characters 23..28 of a 28-character value; an existing hint is never overwritten. |
| ParameterNormalization.HintComesFromFirstTimestamp | package-res/reportviewer/reportviewer.js:636-646 | Over a run of values in the server zone, the hint is the offset of the first 28-character value, and later values never replace it. |
| ParameterNormalization.MatchesAtEndAsWritten | package-res/reportviewer/reportviewer.js:654 | As written, the hint test throws exactly when the hint starts with a quantifier. Otherwise it is the suffix test. |
| ParameterNormalization.NormalizeAsWritten | package-res/reportviewer/reportviewer.js:620-664 | As written, normalisation throws exactly when the hint test is reached with a hint that starts with a quantifier. In every other case it agrees with `Normalize`. |
| ParameterNormalization.PositiveOffsetHintThrows | package-res/reportviewer/reportviewer.js:652-657 | With the hint `+0100` in a fixed zone, the code as written throws `SyntaxError`, while the intended test keeps the value. |
| DateTransport.InitDateFormatters | package-res/reportviewer/reportviewer.js:504-514 | The cache is created once with the four fixed formatters and is left alone afterwards. |
| DateTransport.FormatterKey | package-res/reportviewer/reportviewer.js:553-574 | The chosen cache key stands for the pattern the policy names: with zone for the client, the hint's offset, without zone for the server, the UTC pattern, or the named zone's offset. |
| DateTransport.SelectFormatter | package-res/reportviewer/reportviewer.js:552-576 | The formatter used is the cached one under the chosen key. A missing hint or offset key is created with the offset pattern. Existing entries are never replaced, and the cache grows by that key at most. |
| DateTransport.SelectionFollowsPolicy | package-res/reportviewer/reportviewer.js:552-576 | From a coherent cache, the pattern used is what the timezone policy asks for: client, hint, server, utc, or the named zone's offset. The cache stays coherent. |
| DateTransport.SelectionIdempotent | package-res/reportviewer/reportviewer.js:558-573 | Formatting again under the same policy creates no new formatter: at most one formatter per key. |
| DateTransport.WithoutTimezoneInput | package-res/reportviewer/reportviewer.js:608-615 | A 28-character string is cut to its first 23 characters, and the cut-off part completes it. Any other string is parsed as is. |
| DateTransport.CutOffIsHint | package-res/reportviewer/reportviewer.js:608-646 | The offset the parser cuts from a timestamp is exactly the hint that normalisation records in the server zone. |
| DateTransport.ParseAttempts | package-res/reportviewer/reportviewer.js:577-604 | `parse` tries the zoned pattern first and only in the client zone, then the truncated input without a zone. It tries the date-only pattern exactly for 10-character input, and milliseconds last. The zoned attempt reads the whole text, and there is no other attempt. |
| DateTransport.FirstAccepted | package-res/reportviewer/reportviewer.js:578-596 | The position found is an accepted attempt, and every earlier attempt was rejected; it is the count of attempts when none is accepted. |
| DateTransport.ParseAsWritten | package-res/reportviewer/reportviewer.js:577-603 | As written, `parse` never returns `''`. It returns an invalid date exactly when no pattern accepts the text and `parseFloat` reads no valid time value. A date read by a pattern comes from the first pattern attempt that accepts the text. |
| DateTransport.Parse | package-res/reportviewer/reportviewer.js:577-603 | With the intended fallback, `parse` returns `''` exactly when nothing reads the text, and never an invalid date. Otherwise the first pattern attempt that accepts the text wins, then the millisecond reading. |
| DateTransport.ParseAgreesWhenSomethingParses | package-res/reportviewer/reportviewer.js:577-603 | The two readings of `parse` agree on every text that some attempt reads. |
| DateTransport.UnparseableTextGivesInvalidDate | package-res/reportviewer/reportviewer.js:598-603 | For `n/a` with no accepting pattern, the code as written returns an invalid date where `''` was meant. |

## Left out

- Widget, DOM and iframe work is not modelled, because it is toolkit plumbing
  with no rule to state: `view.*`, `showMessageBox`, `resize`, `resizeIframe`,
  `hide`, `createRequiredHooks`, `openUrlInDialog`, `reauthenticate`,
  `createPromptPanel`, `_load`'s body and the page-control callback wiring.
- The network is not modelled. The synchronous `$.ajax` of
  `fetchParameterDefinition`, parsing the returned XML, keeping the
  auto-submit setting and the alerts are all I/O. Only the posted options
  are modelled, plus the login-page test the response goes through.
- `convertTimeStampToTimeZone`, the `timeutil` helpers, `jsTextFormatter`
  and `Date` depend on the host clock and timezone and on a library that is
  not part of this model. They are function-typed parameters, and formatters
  are known by their pattern.
- `createFormatter` and `_createDataTransportFormatter` are not modelled.
  Apart from composing those abstract formatters, `createFormatter` decides
  whether a formatter exists at all. It returns none when `jsTextFormatter`
  is missing, for a list parameter, and when neither a pattern nor a
  `data-format` attribute is given. That decision is not modelled.
- ReportUrl.UpdateReport: the source blanks the frame named by
  `htmlObject` but loads the report into `#reportContent`. The model has
  one frame and does not tell the two apart. Nothing in `reportviewer.js`
  sets `htmlObject`, so the blanking selects `#undefined` and may blank no
  frame at all; the model's `AboutBlank` is the blanking the code attempts.
- ReportUrl.ReportUrlReadsBack: holds only when every URL and panel
  property name is non-empty. A property with the empty name and value `v`
  is sent as `=v`, which reads back as a property named `v` with value `""`.
- ReportUrl.SessionNeverSent: holds only for non-empty property names. A
  panel value `{"": "::session"}` is sent as `=::session`, and
  `::session` then reads back from the report URL.
- ReportUrl.RenderModeSent: holds only for non-empty property names. A panel
  value `{"": "renderMode"}` adds a second `renderMode`, which then reads back
  as an array.
- ReportUrl.SubmitAndScheduleModes: holds only for non-empty property names,
  for the reason given for ReportUrl.RenderModeSent.
- ReportUrl.QueryReadsBack: holds for non-empty property names only,
  because the pair expression cannot read back a pair whose name is empty.
- DateTransport.ParseAttempts: gives the order of parsers only. Which
  pattern attempt succeeds is the abstract parameter `accepts` of
  `DateTransport.ParseAsWritten`.
- DateTransport.ParseAsWritten: whether `parseFloat` reads a valid time value
  is the abstract parameter `isTimeValue`. The date values themselves are not
  modelled, only which attempt produced them.
- QueryString.GetUrlParameters: `decodeURIComponent` throwing `URIError` on
  a malformed escape is not modelled, because the decoder is an abstract
  total function.
- JsObject.Put: JavaScript enumerates integer-like keys (`"0"`, `"1"`, …)
  before all others. The model keeps plain insertion order. Names of
  inherited `Object.prototype` members (`toString`, `__proto__`, …) are
  treated as ordinary keys.
- ReportUrl.QueryPairs: panel values are strings or arrays of strings.
  Numbers and booleans, which `addParam` would silently drop, are not
  modelled.
- PageControl.RefreshPageControl: `total` and `page` are integers. In the
  source they are JavaScript numbers, and a missing `totalPages` turns the
  clamp into NaN through `Math.min` and `Math.max`; that case is not modelled.
- String lengths count Unicode scalar values (Dafny's `char`), while
  JavaScript counts UTF-16 code units, so text outside the Basic Multilingual
  Plane measures differently. This affects the 28-character and 10-character
  tests in ParameterNormalization.Normalize, DateTransport.WithoutTimezoneInput
  and DateTransport.ParseAttempts, and the two-character cut in
  QueryString.GetLocale. Timestamps and locale tags are ASCII, where the two
  agree.
- PageControl.RefreshPageControl: `accepted-page` is kept as an integer.
  The source stores its decimal text `'' + page`.
- ParameterNormalization.IsWhitespace: covers the ASCII blanks, no-break
  space and byte-order mark. Other Unicode space characters that `$.trim`
  also removes are not modelled.
- ParameterNormalization.MatchesAtEndAsWritten: requires a hint of letters,
  digits, `-`, `:`, `_` and spaces, after an optional leading quantifier.
  Other regular-expression syntax in a hint is not modelled.
- ParameterNormalization.NormalizeAsWritten: when the hint test is reached,
  the regular expression `hint + '$'` is modelled only for hints of letters, digits, `-`, `:`, `_`
  and spaces, after an optional leading quantifier. Other regular-expression
  syntax in a hint is not modelled.

## Findings

| source | as written | input that shows it | evidently intended | confidence | as-written member | corrected member |
|---|---|---|---|---|---|---|
| package-res/reportviewer/reportviewer.js:19-26 | The `$.each` callback returns `!everythingLoaded`. `$.each` stops on `false`, so the loop ends after the first entry whenever that entry is loaded. Otherwise the flag is already false and stays false. `_load` therefore fires exactly when the first module of the hash is loaded. | With `requiredModules = ['formatter', 'dojo']`, call `moduleLoaded('formatter')` first: `_load` runs while `dojo` is not loaded, and runs again when `dojo` reports. | `_load` fires once every required module has reported. | high, not executed | ModuleReadiness.ModuleLoadedAsWritten, ModuleReadiness.FirstReportFiresForFirstModule, ModuleReadiness.LoadFiresBeforeDojo | ModuleReadiness.ModuleLoaded, ModuleReadiness.FiresExactlyWhenAllReported |
| package-res/reportviewer/reportviewer.js:598-603 | The last attempt is `new Date(parseFloat(s))` inside a `try`. Neither call throws: text that is not a number gives a `Date` whose time value is NaN. So the closing `return ''`, commented as the null of the dashboard framework, is dead code. | `parse('n/a')` in the server zone, where no date pattern accepts the text. | Text that nothing reads gives `''`. | medium, not executed | DateTransport.ParseAsWritten, DateTransport.UnparseableTextGivesInvalidDate | DateTransport.Parse, DateTransport.ParseAgreesWhenSomethingParses |
| package-res/reportviewer/reportviewer.js:653-654 | `value.match(parameter.timezoneHint + '$')` compiles the hint as a regular expression. An offset east of UTC such as `+0100` begins with a quantifier that has nothing to repeat, so the call throws `SyntaxError`. | A parameter with timezone `Europe/Paris` and hint `+0100`, type `java.util.Date`, value `2003-01-01T00:00:00.000+0100`. | The value ends with the hint, so it is returned unchanged. | medium, not executed | ParameterNormalization.NormalizeAsWritten, ParameterNormalization.PositiveOffsetHintThrows | ParameterNormalization.Normalize |

=== FILE: common.dfy ===
/** Small failure-carrying datatypes shared by the modules of the report viewer model. */
module Common {

  /** A value that may be missing: JavaScript's `undefined` (or `null`) becomes `None`. */
  datatype Option<+T> = None | Some(value: T)

  /** The two JavaScript exceptions the modelled code can raise on its own. */
  datatype JsError = TypeError | SyntaxError

  /** How a call of the viewer code ends: with a value, or by throwing. */
  datatype Outcome<+T> = Returned(value: T) | Threw(error: JsError)

  /** The distinct elements of a sequence. */
  function Elems<T>(s: seq<T>): set<T>
  {
    set x | x in s
  }
}

=== FILE: date_transport.dfy ===
/**
 * `ReportViewer._createDateTransportFormatter` and `parseDateWithoutTimezoneInfo`:
 * which pattern formats a date for the reporting engine, the cache of
 * formatters kept in `dateFormatters`, and the order in which an incoming
 * date string is tried against the parsers. The formatters themselves are
 * known only by the pattern they were created with.
 */
module DateTransport {
  import opened Common
  import opened ParameterNormalization

  const WithTimezonePattern: string := "yyyy-MM-dd'T'HH:mm:ss.SSSZ"
  const WithoutTimezonePattern: string := "yyyy-MM-dd'T'HH:mm:ss.SSS"
  const UtcPattern: string := "yyyy-MM-dd'T'HH:mm:ss.SSS'+0000'"
  const SimplePattern: string := "yyyy-MM-dd"

  /** `dateFormatters`: cache key to the pattern of the formatter created for it. */
  type FormatterCache = map<string, string>

  /** The four formatters `_initDateFormatters` creates. */
  const InitialFormatters: FormatterCache := map[
    "with-timezone" := WithTimezonePattern,
    "without-timezone" := WithoutTimezonePattern,
    "utc" := UtcPattern,
    "simple" := SimplePattern
  ]

  /** `_initDateFormatters`: the cache is created on first use and left alone afterwards. */
  function InitDateFormatters(cache: Option<FormatterCache>): (r: FormatterCache)
    ensures cache.Some? ==> r == cache.value
    ensures cache.None? ==> r.Keys == {"with-timezone", "without-timezone", "utc", "simple"} && Coherent(r)
  {
    match cache
    case None => InitialFormatters
    case Some(c) => c
  }

  /** The pattern of a formatter created for a literal offset (a hint or a named zone's offset). */
  function OffsetPattern(offset: string): string
  {
    WithoutTimezonePattern + "'" + offset + "'"
  }

  /** A timezone hint counts only when it is present and not the empty string. */
  predicate HasHint(hint: Option<string>)
  {
    hint.Some? && |hint.value| > 0
  }

  /**
   * The cache key `format` uses: the client's zone, else the hint, else the
   * server's zone, UTC, or the offset of the named zone. `offsetOf` stands
   * for `ReportViewer.timeutil.getOffsetAsString`.
   */
  function FormatterKey(timezone: Option<string>, hint: Option<string>, offsetOf: string -> string): (key: string)
    ensures CanonicalPattern(key) == PolicyPattern(timezone, hint, offsetOf)
  {
    if timezone == Some("client") then "with-timezone"
    else if HasHint(hint) then hint.value
    else if ServerTimezone(timezone) then "without-timezone"
    else if timezone == Some("utc") then "utc"
    else offsetOf(timezone.value)
  }

  /** The formatter `format` uses, by key and pattern, and the cache afterwards. */
  datatype Selection = Selection(key: string, pattern: string, cache: FormatterCache)

  /**
   * `format` of the transport formatter: the formatter under the chosen key,
   * created from the offset pattern the first time a hint or offset key is
   * used and reused from then on.
   */
  function SelectFormatter(cache: FormatterCache, timezone: Option<string>, hint: Option<string>,
                           offsetOf: string -> string): (r: Selection)
    requires InitialFormatters.Keys <= cache.Keys
    ensures r.key == FormatterKey(timezone, hint, offsetOf)
    ensures r.cache.Keys == cache.Keys + {r.key}
    ensures forall k :: k in cache ==> r.cache[k] == cache[k]
    ensures r.pattern == r.cache[r.key]
    ensures r.key !in cache ==> r.pattern == OffsetPattern(r.key)
  {
    var key := FormatterKey(timezone, hint, offsetOf);
    var c := if key in cache then cache else cache[key := OffsetPattern(key)];
    Selection(key, c[key], c)
  }

  /** The pattern a cache key stands for: one of the four initial ones, or the offset pattern of the key. */
  function CanonicalPattern(key: string): string
  {
    if key in InitialFormatters then InitialFormatters[key] else OffsetPattern(key)
  }

  /** Every formatter in the cache was created with the pattern its key stands for. */
  predicate Coherent(cache: FormatterCache)
  {
    && InitialFormatters.Keys <= cache.Keys
    && forall k :: k in cache ==> cache[k] == CanonicalPattern(k)
  }

  /** The pattern the timezone policy asks for, stated without the cache. */
  function PolicyPattern(timezone: Option<string>, hint: Option<string>, offsetOf: string -> string): string
  {
    if timezone == Some("client") then WithTimezonePattern
    else if HasHint(hint) then CanonicalPattern(hint.value)
    else if ServerTimezone(timezone) then WithoutTimezonePattern
    else if timezone == Some("utc") then UtcPattern
    else CanonicalPattern(offsetOf(timezone.value))
  }

  /**
   * From the freshly initialised cache on, every call formats with the
   * pattern the policy asks for, and the cache stays coherent.
   */
  lemma SelectionFollowsPolicy(cache: FormatterCache, timezone: Option<string>, hint: Option<string>,
                               offsetOf: string -> string)
    requires Coherent(cache)
    ensures var r := SelectFormatter(cache, timezone, hint, offsetOf);
      r.pattern == PolicyPattern(timezone, hint, offsetOf) && Coherent(r.cache)
  {
  }

  /** A second `format` under the same policy creates nothing new: formatters are created at most once per key. */
  lemma SelectionIdempotent(cache: FormatterCache, timezone: Option<string>, hint: Option<string>,
                            offsetOf: string -> string)
    requires InitialFormatters.Keys <= cache.Keys
    ensures var r := SelectFormatter(cache, timezone, hint, offsetOf);
      SelectFormatter(r.cache, timezone, hint, offsetOf) == r
  {
  }

  /** `parseDateWithoutTimezoneInfo`'s input: a 28-character timestamp loses its offset. */
  function WithoutTimezoneInput(s: string): (r: string)
    ensures |s| == TimestampLength ==> |r| == OffsetStart && r + s[OffsetStart..] == s
    ensures |s| != TimestampLength ==> r == s
  {
    if |s| == TimestampLength then s[..OffsetStart] else s
  }

  /**
   * The part of a timestamp the parser cuts off is exactly the hint that
   * normalisation records for a parameter in the server's zone.
   */
  lemma CutOffIsHint(v: string, ty: string, timezone: Option<string>, convert: (string, string) -> string)
    requires |v| == TimestampLength
    requires ElementType(ty) in JavaDateTypes && ServerTimezone(timezone)
    ensures var p := Normalize(DateParameter(timezone, None), Some(ty), Some(v), convert).parameter;
      p.timezoneHint.Some? && WithoutTimezoneInput(v) + p.timezoneHint.value == v
  {
  }

  /** One try of `parse`, with the text handed to the parser. */
  datatype ParseAttempt =
    | WithTimezone(text: string)
    | WithoutTimezone(text: string)
    | DateOnly(text: string)
    | EpochMillis(text: string)

  /**
   * The order in which `parse` tries its parsers: the zoned pattern for the
   * client's zone, the pattern without zone, the date-only pattern for
   * 10-character input, and last a number of milliseconds.
   */
  function ParseAttempts(timezone: Option<string>, s: string): (r: seq<ParseAttempt>)
    ensures 2 <= |r| <= 4
    ensures r[0].WithTimezone? <==> timezone == Some("client")
    ensures timezone == Some("client") ==> r[0] == WithTimezone(s)
    ensures |r| == (if timezone == Some("client") then 1 else 0) + (if |s| == 10 then 1 else 0) + 2
    ensures r[if timezone == Some("client") then 1 else 0] == WithoutTimezone(WithoutTimezoneInput(s))
    ensures DateOnly(s) in r <==> |s| == 10
    ensures |s| == 10 ==> r[|r| - 2] == DateOnly(s)
    ensures r[|r| - 1] == EpochMillis(s)
    ensures forall i :: 0 <= i < |r| ==> r[i].WithTimezone? ==> i == 0
  {
    PatternTries(timezone, s) + [EpochMillis(s)]
  }

  /** The attempts that go through a date pattern, and may throw: all but the last. */
  function PatternTries(timezone: Option<string>, s: string): (r: seq<ParseAttempt>)
    ensures forall i :: 0 <= i < |r| ==> !r[i].EpochMillis?
  {
    (if timezone == Some("client") then [WithTimezone(s)] else [])
    + [WithoutTimezone(WithoutTimezoneInput(s))]
    + (if |s| == 10 then [DateOnly(s)] else [])
  }

  /** The position of the first attempt that is accepted, or the number of attempts when none is. */
  function FirstAccepted(tries: seq<ParseAttempt>, accepts: ParseAttempt -> bool): (i: nat)
    ensures i <= |tries|
    ensures i < |tries| ==> accepts(tries[i])
    ensures forall j :: 0 <= j < i ==> !accepts(tries[j])
  {
    if |tries| == 0 || accepts(tries[0]) then 0
    else
      var i := 1 + FirstAccepted(tries[1..], accepts);
      assert forall j :: 1 <= j < i ==> tries[j] == tries[1..][j - 1];
      i
  }

  /** What `parse` hands back. */
  datatype Parsed =
    | ParsedBy(attempt: ParseAttempt)  // the date read by this attempt
    | InvalidDate                       // a `Date` whose time value is NaN
    | NullSentinel                      // `''`, the dashboard framework's null

  /** No date pattern accepts the text, and `parseFloat` reads no valid time value from it. */
  predicate NothingParses(timezone: Option<string>, s: string, accepts: ParseAttempt -> bool,
                          isTimeValue: string -> bool)
  {
    && (forall a :: a in PatternTries(timezone, s) ==> !accepts(a))
    && !isTimeValue(s)
  }

  /**
   * `parse` as written. `accepts` says which pattern attempts return rather
   * than throw, and `isTimeValue` whether `parseFloat` reads a valid time
   * value from the text. The millisecond attempt builds a `Date` from
   * whatever `parseFloat` gives and so never throws: unparseable text gives
   * an invalid date, and the closing `''` is never reached.
   */
  function ParseAsWritten(timezone: Option<string>, s: string, accepts: ParseAttempt -> bool,
                          isTimeValue: string -> bool): (r: Parsed)
    ensures r != NullSentinel
    ensures r == InvalidDate <==> NothingParses(timezone, s, accepts, isTimeValue)
    ensures r.ParsedBy? ==> r.attempt in ParseAttempts(timezone, s)
    ensures r.ParsedBy? && !r.attempt.EpochMillis? ==> accepts(r.attempt)
    ensures r.ParsedBy? && !r.attempt.EpochMillis?
        ==> r.attempt == PatternTries(timezone, s)[FirstAccepted(PatternTries(timezone, s), accepts)]
    ensures r == ParsedBy(EpochMillis(s))
        <==> (forall a :: a in PatternTries(timezone, s) ==> !accepts(a)) && isTimeValue(s)
  {
    var tries := PatternTries(timezone, s);
    var i := FirstAccepted(tries, accepts);
    if i < |tries| then ParsedBy(tries[i])
    else if isTimeValue(s) then ParsedBy(EpochMillis(s))
    else InvalidDate
  }

  /**
   * `parse` as its last line means it: text that no attempt reads gives
   * `''`, the null value of the dashboard framework, instead of an invalid date.
   */
  function Parse(timezone: Option<string>, s: string, accepts: ParseAttempt -> bool,
                 isTimeValue: string -> bool): (r: Parsed)
    ensures r != InvalidDate
    ensures r == NullSentinel <==> NothingParses(timezone, s, accepts, isTimeValue)
    ensures r.ParsedBy? ==> r.attempt in ParseAttempts(timezone, s)
    ensures r.ParsedBy? && !r.attempt.EpochMillis? ==> accepts(r.attempt)
    ensures r.ParsedBy? && !r.attempt.EpochMillis?
        ==> r.attempt == PatternTries(timezone, s)[FirstAccepted(PatternTries(timezone, s), accepts)]
    ensures r == ParsedBy(EpochMillis(s))
        <==> (forall a :: a in PatternTries(timezone, s) ==> !accepts(a)) && isTimeValue(s)
  {
    var tries := PatternTries(timezone, s);
    var i := FirstAccepted(tries, accepts);
    if i < |tries| then ParsedBy(tries[i])
    else if isTimeValue(s) then ParsedBy(EpochMillis(s))
    else NullSentinel
  }

  /** The two readings agree on every text that some attempt reads. */
  lemma ParseAgreesWhenSomethingParses(timezone: Option<string>, s: string, accepts: ParseAttempt -> bool,
                                       isTimeValue: string -> bool)
    requires !NothingParses(timezone, s, accepts, isTimeValue)
    ensures ParseAsWritten(timezone, s, accepts, isTimeValue) == Parse(timezone, s, accepts, isTimeValue)
  {
  }

  /** Text that nothing reads: as written an invalid date comes back, where `''` was meant. */
  lemma UnparseableTextGivesInvalidDate()
    ensures ParseAsWritten(None, "n/a", a => false, t => false) == InvalidDate
    ensures Parse(None, "n/a", a => false, t => false) == NullSentinel
  {
  }
}

=== FILE: js_object.dfy ===
/**
 * JavaScript plain objects as the viewer uses them: string keys in insertion
 * order (the order in which `$.each` visits them), each bound to one value.
 */
module JsObject {
  import opened Common

  /** A parameter value as it travels between the URL, the prompt panel and the report URL. */
  datatype Value = Undefined | Null | Str(s: string) | List(items: seq<string>)

  datatype Entry<V> = Entry(key: string, val: V)

  /** An object's own properties in enumeration order. */
  type Dict<V> = seq<Entry<V>>

  function Keys<V>(d: Dict<V>): set<string>
  {
    if |d| == 0 then {} else {d[0].key} + Keys(d[1..])
  }

  /** No key is bound twice: the invariant of every JavaScript object. */
  predicate UniqueKeys<V>(d: Dict<V>)
  {
    |d| == 0 || (d[0].key !in Keys(d[1..]) && UniqueKeys(d[1..]))
  }

  /** `obj[k]`, with `None` for a property that is not there. */
  function Lookup<V>(d: Dict<V>, k: string): (r: Option<V>)
    ensures r.Some? <==> k in Keys(d)
    ensures r.Some? ==> Entry(k, r.value) in d
  {
    if |d| == 0 then None
    else if d[0].key == k then Some(d[0].val)
    else Lookup(d[1..], k)
  }

  /**
   * `obj[k] = v`: an existing property keeps its place in the enumeration
   * order, a new one is enumerated last.
   */
  function Put<V>(d: Dict<V>, k: string, v: V): (r: Dict<V>)
    ensures Lookup(r, k) == Some(v)
    ensures forall k' :: k' != k ==> Lookup(r, k') == Lookup(d, k')
    ensures Keys(r) == Keys(d) + {k}
    ensures UniqueKeys(d) ==> UniqueKeys(r)
    ensures k in Keys(d) ==> |r| == |d| && forall i :: 0 <= i < |d| ==> r[i].key == d[i].key
    ensures k !in Keys(d) ==> r == d + [Entry(k, v)]
    ensures forall e :: e in r ==> e in d || e == Entry(k, v)
  {
    if |d| == 0 then [Entry(k, v)]
    else if d[0].key == k then [Entry(k, v)] + d[1..]
    else [d[0]] + Put(d[1..], k, v)
  }

  /** `delete obj[k]`: harmless when the property is absent. */
  function Remove<V>(d: Dict<V>, k: string): (r: Dict<V>)
    ensures Lookup(r, k) == None
    ensures forall k' :: k' != k ==> Lookup(r, k') == Lookup(d, k')
    ensures Keys(r) == Keys(d) - {k}
    ensures UniqueKeys(d) ==> UniqueKeys(r)
    ensures forall e :: e in r ==> e in d
  {
    if |d| == 0 then []
    else if d[0].key == k then Remove(d[1..], k)
    else [d[0]] + Remove(d[1..], k)
  }

  /** Reading a property as JavaScript does: a missing one reads as `undefined`. */
  function Get(d: Dict<Value>, k: string): Value
  {
    match Lookup(d, k)
    case None => Undefined
    case Some(v) => v
  }

  /** What `$.extend(target, source)` leaves in property `k`. */
  function Override(target: Dict<Value>, source: Dict<Value>, k: string): Value
  {
    if Get(source, k) != Undefined then Get(source, k) else Get(target, k)
  }

  /**
   * `$.extend(target, source)`: copies every property of `source` into
   * `target`, in `source` order, except those whose value is `undefined`.
   */
  function Extend(target: Dict<Value>, source: Dict<Value>): (r: Dict<Value>)
    requires UniqueKeys(source)
    ensures forall k :: Get(r, k) == Override(target, source, k)
    ensures forall k :: k in Keys(target) ==> k in Keys(r)
    ensures forall k :: k in Keys(r) ==> k in Keys(target) || k in Keys(source)
    ensures UniqueKeys(target) ==> UniqueKeys(r)
    ensures forall e :: e in r ==> e in target || e in source
    decreases |source|
  {
    if |source| == 0 then target
    else
      var next := CopyProperty(target, source[0]);
      var r := Extend(next, source[1..]);
      assert forall k :: Get(r, k) == Override(target, source, k) by {
        forall k ensures Get(r, k) == Override(target, source, k) {
          if k == source[0].key { assert Get(source[1..], k) == Undefined; }
        }
      }
      r
  }

  /** One property copied by `$.extend`: skipped when its value is `undefined`. */
  function CopyProperty(target: Dict<Value>, e: Entry<Value>): (r: Dict<Value>)
    ensures Get(r, e.key) == if e.val != Undefined then e.val else Get(target, e.key)
    ensures forall k :: k != e.key ==> Lookup(r, k) == Lookup(target, k)
    ensures Keys(target) <= Keys(r) <= Keys(target) + {e.key}
    ensures UniqueKeys(target) ==> UniqueKeys(r)
    ensures forall x :: x in r ==> x in target || x == e
  {
    if e.val == Undefined then target else Put(target, e.key, e.val)
  }
}

=== FILE: login_detection.dfy ===
/**
 * `ReportViewer.isLoginPageContent` and `handleSessionTimeout`: a server
 * response that contains the login form's action is the login page, which
 * means the session has expired.
 */
module LoginDetection {

  /** The marker of the login page: the form action of the security filter. */
  const LoginMarker: string := "j_spring_security_check"

  predicate OccursAt(s: string, pat: string, i: int)
  {
    0 <= i && i + |pat| <= |s| && s[i..i + |pat|] == pat
  }

  predicate Contains(s: string, pat: string)
  {
    exists i :: 0 <= i <= |s| && OccursAt(s, pat, i)
  }

  /** `String.prototype.indexOf`: the first position of `pat` in `s`, or -1. */
  method IndexOf(s: string, pat: string) returns (r: int)
    ensures r == -1 || (OccursAt(s, pat, r) && forall j :: 0 <= j < r ==> !OccursAt(s, pat, j))
    ensures r == -1 <==> !Contains(s, pat)
  {
    var i := 0;
    while i + |pat| <= |s|
      invariant 0 <= i
      invariant forall j :: 0 <= j < i ==> !OccursAt(s, pat, j)
      decreases |s| - i
    {
      if s[i..i + |pat|] == pat {
        return i;
      }
      i := i + 1;
    }
    r := -1;
  }

  /** `isLoginPageContent`: the response is the login page exactly when it contains the marker. */
  method IsLoginPageContent(content: string) returns (isLogin: bool)
    ensures isLogin <==> Contains(content, LoginMarker)
  {
    var at := IndexOf(content, LoginMarker);
    isLogin := at != -1;
  }

  /**
   * `handleSessionTimeout`: a login page starts re-authentication (left to
   * the host page) and reports the timeout; any other content is handed on.
   */
  method HandleSessionTimeout(content: string) returns (timedOut: bool)
    ensures timedOut <==> Contains(content, LoginMarker)
  {
    timedOut := IsLoginPageContent(content);
  }
}

=== FILE: module_readiness.dfy ===
/**
 * `ReportViewer.moduleLoaded`: every required module reports in by name, and
 * the viewer loads itself (`_load`) once all of them have.
 */
module ModuleReadiness {
  import opened Common
  import opened JsObject

  /** `ReportViewer.requiredModules`. */
  const RequiredModules: seq<string> := ["formatter", "dojo"]

  /** One report: the readiness hash afterwards, and whether `_load` was invoked. */
  datatype LoadStep = LoadStep(modules: Dict<bool>, fired: bool)

  /** The private hash created on the first report: every required module, not loaded. */
  function InitialReadiness(required: seq<string>): (d: Dict<bool>)
    ensures Keys(d) == Elems(required)
    ensures UniqueKeys(d)
    ensures forall k :: k in Keys(d) ==> Lookup(d, k) == Some(false)
    ensures |required| > 0 ==> |d| > 0 && d[0].key == required[0]
  {
    if |required| == 0 then []
    else Put(InitialReadiness(required[..|required| - 1]), required[|required| - 1], false)
  }

  /** The hash before the report: created lazily when `_requiredModules` is still undefined. */
  function Current(state: Option<Dict<bool>>, required: seq<string>): Dict<bool>
  {
    match state
    case None => InitialReadiness(required)
    case Some(d) => d
  }

  /** Every entry of the hash says "loaded". */
  predicate AllLoaded(d: Dict<bool>)
  {
    forall i :: 0 <= i < |d| ==> d[i].val
  }

  lemma {:induction false} AllLoadedByKey(d: Dict<bool>)
    requires UniqueKeys(d)
    ensures AllLoaded(d) <==> forall k :: k in Keys(d) ==> Lookup(d, k) == Some(true)
  {
    if |d| > 0 {
      var t := d[1..];
      var first := d[0].key;
      AllLoadedByKey(t);
      assert AllLoaded(d) <==> d[0].val && AllLoaded(t) by {
        if d[0].val && AllLoaded(t) {
          forall i | 0 <= i < |d| ensures d[i].val {
            if i > 0 { assert d[i] == t[i - 1]; }
          }
        }
        if AllLoaded(d) {
          forall i | 0 <= i < |t| ensures t[i].val { assert t[i] == d[i + 1]; }
        }
      }
      assert Keys(d) == {first} + Keys(t);
      assert Lookup(d, first) == Some(d[0].val);
      assert forall k :: k in Keys(t) ==> Lookup(d, k) == Lookup(t, k) by {
        forall k | k in Keys(t) ensures Lookup(d, k) == Lookup(t, k) { assert k != first; }
      }
      if AllLoaded(d) {
        forall k | k in Keys(d) ensures Lookup(d, k) == Some(true) {
          if k != first { assert k in Keys(t); }
        }
      } else if d[0].val {
        var k :| k in Keys(t) && Lookup(t, k) != Some(true);
        assert k in Keys(d) && Lookup(d, k) != Some(true);
      } else {
        assert first in Keys(d) && Lookup(d, first) != Some(true);
      }
    }
  }

  /**
   * `moduleLoaded(name)` with the readiness test it was meant to have:
   * the module is marked loaded and `_load` fires exactly when every entry
   * of the hash is loaded afterwards.
   */
  function ModuleLoaded(state: Option<Dict<bool>>, required: seq<string>, name: string): (r: LoadStep)
    requires state.Some? ==> UniqueKeys(state.value)
    ensures UniqueKeys(r.modules)
    ensures Lookup(r.modules, name) == Some(true)
    ensures forall k :: k != name ==> Lookup(r.modules, k) == Lookup(Current(state, required), k)
    ensures Keys(r.modules) == Keys(Current(state, required)) + {name}
    ensures r.fired <==> forall k :: k in Keys(r.modules) ==> Lookup(r.modules, k) == Some(true)
  {
    var d := Put(Current(state, required), name, true);
    AllLoadedByKey(d);
    LoadStep(d, AllLoaded(d))
  }

  /**
   * The loop of `moduleLoaded` as written: the flag is and-ed with each
   * entry's readiness, and the callback returns `!everythingLoaded`, which `$.each`
   * treats as "stop" when it is `false`, that is while everything so far
   * is still loaded.
   */
  function EverythingLoadedAsWritten(d: Dict<bool>, everythingLoaded: bool): (r: bool)
    ensures !everythingLoaded ==> !r
    ensures everythingLoaded && |d| == 0 ==> r
    ensures everythingLoaded && |d| > 0 ==> (r <==> d[0].val)
  {
    if |d| == 0 then everythingLoaded
    else
      var acc := everythingLoaded && d[0].val;
      var callbackResult := !acc;
      if callbackResult == false then acc
      else EverythingLoadedAsWritten(d[1..], acc)
  }

  /** `moduleLoaded(name)` as written: `_load` fires whenever the first module of the hash is loaded. */
  function ModuleLoadedAsWritten(state: Option<Dict<bool>>, required: seq<string>, name: string): (r: LoadStep)
    ensures |r.modules| > 0
    ensures Lookup(r.modules, name) == Some(true)
    ensures forall k :: k != name ==> Lookup(r.modules, k) == Lookup(Current(state, required), k)
    ensures r.fired <==> r.modules[0].val
    ensures var c := Current(state, required); r.fired <==> (|c| == 0 || c[0].key == name || c[0].val)
  {
    var d := Put(Current(state, required), name, true);
    LoadStep(d, EverythingLoadedAsWritten(d, true))
  }

  /**
   * With the shipped module list, the first report from "formatter" makes the
   * code as written invoke `_load` while "dojo" is still not loaded; the
   * intended test does not fire.
   */
  lemma LoadFiresBeforeDojo()
    ensures var r := ModuleLoadedAsWritten(None, RequiredModules, "formatter");
      r.fired && Lookup(r.modules, "dojo") == Some(false)
    ensures !ModuleLoaded(None, RequiredModules, "formatter").fired
  {
    InitialRequired();
    var d := Put(InitialReadiness(RequiredModules), "formatter", true);
    assert d == [Entry("formatter", true), Entry("dojo", false)];
    assert Lookup(d, "dojo") == Some(false);
    assert "dojo" in Keys(d);
  }

  /**
   * On the very first report the code as written invokes `_load` exactly
   * when the reporting module is the first one listed, whatever the others.
   */
  lemma FirstReportFiresForFirstModule(required: seq<string>, name: string)
    requires |required| > 0
    ensures ModuleLoadedAsWritten(None, required, name).fired <==> name == required[0]
  {
  }

  /** The hash the first report creates from the shipped module list. */
  lemma InitialRequired()
    ensures InitialReadiness(RequiredModules) == [Entry("formatter", false), Entry("dojo", false)]
  {
    assert RequiredModules[..1] == ["formatter"];
    assert InitialReadiness(["formatter"]) == [Entry("formatter", false)] by {
      assert ["formatter"][..0] == [];
    }
  }

  /** The readiness hash after the modules in `names` have reported, in order. */
  function Replay(required: seq<string>, names: seq<string>): (state: Option<Dict<bool>>)
    ensures state.Some? <==> |names| > 0
    ensures state.Some? ==> UniqueKeys(state.value)
  {
    if |names| == 0 then None
    else Some(ModuleLoaded(Replay(required, names[..|names| - 1]), required, names[|names| - 1]).modules)
  }

  /** An element other than the last one is in a sequence exactly when it is in the rest. */
  lemma InAllButLast<T>(s: seq<T>, x: T)
    requires |s| > 0 && x != s[|s| - 1]
    ensures x in s <==> x in s[..|s| - 1]
  {
    assert s == s[..|s| - 1] + [s[|s| - 1]];
  }

  /** After a run of reports, a module is loaded exactly when it has reported. */
  lemma {:induction false} ReplayContents(required: seq<string>, names: seq<string>, k: string)
    requires |names| > 0
    ensures Lookup(Replay(required, names).value, k)
         == if k in names then Some(true) else if k in required then Some(false) else None
  {
    var prefix := names[..|names| - 1];
    var last := names[|names| - 1];
    var before := Replay(required, prefix);
    var m := ModuleLoaded(before, required, last).modules;
    assert Replay(required, names).value == m;
    if k == last {
      assert k in names;
    } else {
      assert Lookup(m, k) == Lookup(Current(before, required), k);
      InAllButLast(names, k);
      if |prefix| > 0 {
        ReplayContents(required, prefix, k);
      } else {
        var init := InitialReadiness(required);
        assert k in Keys(init) <==> k in required;
      }
    }
  }

  /**
   * The intended promise of `moduleLoaded`: the report from `name` invokes
   * `_load` exactly when every required module has reported by then.
   */
  lemma FiresExactlyWhenAllReported(required: seq<string>, names: seq<string>, name: string)
    ensures ModuleLoaded(Replay(required, names), required, name).fired
        <==> forall m :: m in required ==> m in names + [name]
  {
    var all := names + [name];
    assert all[..|all| - 1] == names;
    var d := Replay(required, all).value;
    assert d == ModuleLoaded(Replay(required, names), required, name).modules;
    forall k
      ensures Lookup(d, k) == if k in all then Some(true) else if k in required then Some(false) else None
    {
      ReplayContents(required, all, k);
    }
  }
}

=== FILE: page_control.dfy ===
/**
 * The page control of `ReportViewer.view`: the server reports a 0-based
 * page, the control shows it 1-based, and a page change sends it back
 * 0-based as the `accepted-page` parameter.
 */
module PageControl {
  import opened Common

  /** What `refreshPageControl` leaves behind: the control's count and number, and `accepted-page` if it set it. */
  datatype PageView = PageView(pageCount: int, pageNumber: int, acceptedPage: Option<int>)

  /** The page pulled into range: at most the last page, and never below the first. */
  function ClampPage(page: int, total: int): (r: int)
    ensures 0 <= r
    ensures total >= 1 ==> r <= total - 1
    ensures total >= 1 ==> (r == page <==> 0 <= page < total)
    ensures page < 0 || total < 1 ==> r == 0
    ensures total >= 1 && page >= total ==> r == total - 1
  {
    var lowered := if page < total - 1 then page else total - 1;
    if 0 < lowered then lowered else 0
  }

  /** `refreshPageControl`: a non-paginated report is one page long; otherwise the server's page is clamped into range. */
  function RefreshPageControl(paginate: bool, total: int, page: int): (v: PageView)
    ensures !paginate ==> v == PageView(1, 1, None)
    ensures paginate ==> v.pageCount == total && v.acceptedPage.Some?
    ensures paginate ==> 0 <= v.acceptedPage.value && v.pageNumber == v.acceptedPage.value + 1
    ensures paginate && total >= 1 ==> 1 <= v.pageNumber <= total
    ensures paginate && 0 <= page < total ==> v.acceptedPage == Some(page)
    ensures paginate ==> v.acceptedPage == Some(ClampPage(page, total))
  {
    if !paginate then PageView(1, 1, None)
    else
      var accepted := ClampPage(page, total);
      PageView(total, accepted + 1, Some(accepted))
  }

  /** `pageChanged`: the 1-based number picked on the control becomes the 0-based `accepted-page`. */
  function PageChanged(pageNumber: int): (accepted: int)
    ensures accepted + 1 == pageNumber
  {
    pageNumber - 1
  }

  /** Showing a page and then picking the number shown asks for the same page again. */
  lemma DisplayThenChange(total: int, page: int)
    ensures var v := RefreshPageControl(true, total, page);
      PageChanged(v.pageNumber) == v.acceptedPage.value
  {
  }

  /** Picking page `n` of `total` and getting that page back from the server shows `n` again. */
  lemma ChangeThenDisplay(total: int, n: int)
    requires 1 <= n <= total
    ensures RefreshPageControl(true, total, PageChanged(n)).pageNumber == n
  {
  }
}

=== FILE: parameter_normalization.dfy ===
/**
 * `ReportViewer.normalizeParameterValue` and `_formatTypeMap`: how a value
 * read from the parameter XML is adjusted to the parameter's timezone policy,
 * and which transport formatter a parameter type gets.
 */
module ParameterNormalization {
  import opened Common

  datatype FormatterKind = NumberFormatter | DateFormatter

  /** `_formatTypeMap`: the Java and generic type names with a transport formatter. */
  const FormatTypeMap: map<string, FormatterKind> := map[
    "number" := NumberFormatter,
    "java.lang.Number" := NumberFormatter,
    "java.lang.Byte" := NumberFormatter,
    "java.lang.Short" := NumberFormatter,
    "java.lang.Integer" := NumberFormatter,
    "java.lang.Long" := NumberFormatter,
    "java.lang.Float" := NumberFormatter,
    "java.lang.Double" := NumberFormatter,
    "java.math.BigDecimal" := NumberFormatter,
    "java.math.BigInteger" := NumberFormatter,
    "date" := DateFormatter,
    "java.util.Date" := DateFormatter,
    "java.sql.Date" := DateFormatter,
    "java.sql.Time" := DateFormatter,
    "java.sql.Timestamp" := DateFormatter
  ]

  /** The four `case` labels of the `switch` in `normalizeParameterValue`. */
  const JavaDateTypes: set<string> := {"java.util.Date", "java.sql.Date", "java.sql.Time", "java.sql.Timestamp"}

  /** `createDataTransportFormatter`: a number formatter, a date formatter, or none for other types. */
  function TransportFormatterKind(ty: string): (r: Option<FormatterKind>)
    ensures r.Some? <==> ty in FormatTypeMap
    ensures ty in JavaDateTypes ==> r == Some(DateFormatter)
    ensures r == Some(DateFormatter) ==> ty == "date" || ty in JavaDateTypes
  {
    if ty in FormatTypeMap then Some(FormatTypeMap[ty]) else None
  }

  /** The `switch` and the type map agree: the normalised types are the date types of the map but the generic `date`. */
  lemma SwitchMatchesTypeMap()
    ensures forall t :: t in JavaDateTypes <==> (t in FormatTypeMap && FormatTypeMap[t] == DateFormatter && t != "date")
  {
  }

  /** A match of `^\[L([^;]+);$`: a Java array type name such as `[Ljava.util.Date;`. */
  predicate IsJavaArrayType(ty: string)
  {
    |ty| >= 4 && ty[0] == '[' && ty[1] == 'L' && ty[|ty| - 1] == ';' && ';' !in ty[2..|ty| - 1]
  }

  /** The type with the Java array wrapper stripped, when there is one. */
  function ElementType(ty: string): (r: string)
    ensures IsJavaArrayType(ty) ==> ty == "[L" + r + ";" && |r| > 0 && ';' !in r
    ensures !IsJavaArrayType(ty) ==> r == ty
  {
    if IsJavaArrayType(ty) then ty[2..|ty| - 1] else ty
  }

  /** Wrapping a type name as a Java array type and stripping it again gives the name back. */
  lemma ArrayTypeRoundTrip(x: string)
    requires |x| > 0 && ';' !in x
    ensures IsJavaArrayType("[L" + x + ";")
    ensures ElementType("[L" + x + ";") == x
  {
    var ty := "[L" + x + ";";
    assert ty[2..|ty| - 1] == x;
  }

  /** The attributes of a parameter that normalisation reads and writes. */
  datatype DateParameter = DateParameter(timezone: Option<string>, timezoneHint: Option<string>)

  /** The value handed back, and the parameter as normalisation leaves it. */
  datatype Normalized = Normalized(value: Option<string>, parameter: DateParameter)

  /** A value with a 5-character offset after the 23 characters of `yyyy-MM-ddTHH:mm:ss.SSS`. */
  const TimestampLength: nat := 28
  const OffsetStart: nat := 23

  /** The server's own zone: no timezone given, or the name `server`. */
  predicate ServerTimezone(tz: Option<string>)
  {
    tz.None? || tz.value == "" || tz.value == "server"
  }

  /** The white space `$.trim` removes, restricted to the ASCII and Latin-1 characters and the byte-order mark. */
  predicate IsWhitespace(c: char)
  {
    c == ' ' || c == '\t' || c == '\n' || c == '\r' || c == '\U{000B}' || c == '\U{000C}'
    || c == '\U{00A0}' || c == '\U{FEFF}'
  }

  /** Nothing but whitespace: what is left after `$.trim` is empty. */
  predicate IsBlank(s: string)
  {
    forall i :: 0 <= i < |s| ==> IsWhitespace(s[i])
  }

  predicate EndsWith(s: string, suffix: string)
  {
    |suffix| <= |s| && s[|s| - |suffix|..] == suffix
  }

  /** A value is normalised as a date when both it and its type are given and the type is a Java date type. */
  predicate IsDateValue(ty: Option<string>, value: Option<string>)
  {
    value.Some? && ty.Some? && ElementType(ty.value) in JavaDateTypes
  }

  /** The fixed-zone branch reaches the hint test: a non-blank hint exists. */
  predicate TestsHint(p: DateParameter, ty: Option<string>, value: Option<string>)
  {
    && IsDateValue(ty, value)
    && !ServerTimezone(p.timezone) && p.timezone != Some("client")
    && p.timezoneHint.Some? && !IsBlank(p.timezoneHint.value)
  }

  /** The fixed-zone branch hands the value to `convertTimeStampToTimeZone`. */
  predicate Converts(p: DateParameter, ty: Option<string>, value: Option<string>)
  {
    && IsDateValue(ty, value)
    && !ServerTimezone(p.timezone) && p.timezone != Some("client")
    && !(TestsHint(p, ty, value) && EndsWith(value.value, p.timezoneHint.value))
  }

  /**
   * `normalizeParameterValue`, with the hint test read as "the value ends
   * with the hint". `convert` stands for `convertTimeStampToTimeZone`.
   */
  function Normalize(p: DateParameter, ty: Option<string>, value: Option<string>,
                     convert: (string, string) -> string): (r: Normalized)
    ensures value.None? || ty.None? ==> r == Normalized(None, p)
    ensures value.Some? && ty.Some? && !Converts(p, ty, value) ==> r.value == value
    ensures Converts(p, ty, value) ==> r.value == Some(convert(value.value, p.timezone.value))
    ensures r.parameter.timezone == p.timezone
    ensures p.timezoneHint.Some? ==> r.parameter.timezoneHint == p.timezoneHint
    ensures r.parameter.timezoneHint != p.timezoneHint
        <==> IsDateValue(ty, value) && ServerTimezone(p.timezone) && p.timezoneHint.None? && |value.value| == TimestampLength
    ensures r.parameter.timezoneHint != p.timezoneHint
        ==> r.parameter.timezoneHint == Some(value.value[OffsetStart..TimestampLength])
  {
    if value.None? || ty.None? then Normalized(None, p)
    else
      var v := value.value;
      if ElementType(ty.value) !in JavaDateTypes then Normalized(value, p)
      else if ServerTimezone(p.timezone) then
        var hint := if p.timezoneHint.None? && |v| == TimestampLength then Some(v[OffsetStart..TimestampLength]) else p.timezoneHint;
        Normalized(value, p.(timezoneHint := hint))
      else if p.timezone == Some("client") then Normalized(value, p)
      else if p.timezoneHint.Some? && !IsBlank(p.timezoneHint.value) && EndsWith(v, p.timezoneHint.value) then
        Normalized(value, p)
      else Normalized(Some(convert(v, p.timezone.value)), p)
  }

  /** The parameter after normalising each of its values in turn. */
  function NormalizeAll(p: DateParameter, ty: Option<string>, values: seq<Option<string>>,
                        convert: (string, string) -> string): DateParameter
    decreases |values|
  {
    if |values| == 0 then p else NormalizeAll(Normalize(p, ty, values[0], convert).parameter, ty, values[1..], convert)
  }

  /** The offset of the first value long enough to carry one. */
  function FirstHint(values: seq<Option<string>>): Option<string>
  {
    if |values| == 0 then None
    else if values[0].Some? && |values[0].value| == TimestampLength then Some(values[0].value[OffsetStart..TimestampLength])
    else FirstHint(values[1..])
  }

  /**
   * In the server's zone the hint is taken from the first timestamp seen and
   * never replaced by a later one.
   */
  lemma {:induction false} HintComesFromFirstTimestamp(p: DateParameter, ty: Option<string>, values: seq<Option<string>>,
                                                       convert: (string, string) -> string)
    requires ty.Some? && ElementType(ty.value) in JavaDateTypes
    requires ServerTimezone(p.timezone) && p.timezoneHint.None?
    ensures NormalizeAll(p, ty, values, convert).timezoneHint == FirstHint(values)
  {
    if |values| > 0 {
      var q := Normalize(p, ty, values[0], convert).parameter;
      if q.timezoneHint.Some? {
        HintKept(q, ty, values[1..], convert);
      } else {
        HintComesFromFirstTimestamp(q, ty, values[1..], convert);
      }
    }
  }

  lemma {:induction false} HintKept(p: DateParameter, ty: Option<string>, values: seq<Option<string>>,
                                    convert: (string, string) -> string)
    requires p.timezoneHint.Some?
    ensures NormalizeAll(p, ty, values, convert) == p
  {
    if |values| > 0 {
      HintKept(Normalize(p, ty, values[0], convert).parameter, ty, values[1..], convert);
    }
  }

  /** Characters that stand for themselves in a JavaScript regular expression. */
  predicate IsRegexLiteral(c: char)
  {
    ('0' <= c <= '9') || ('a' <= c <= 'z') || ('A' <= c <= 'Z') || c == '-' || c == ':' || c == ' ' || c == '_'
  }

  predicate IsQuantifier(c: char)
  {
    c == '+' || c == '*' || c == '?'
  }

  /** Hints whose pattern `hint + '$'` the model can read: literal characters, after an optional leading quantifier. */
  predicate ReadablePattern(hint: string)
  {
    forall i :: 0 <= i < |hint| ==> IsRegexLiteral(hint[i]) || (i == 0 && IsQuantifier(hint[i]))
  }

  /**
   * `value.match(hint + '$')`: the string is compiled as a regular
   * expression, and a leading quantifier has nothing to repeat.
   */
  function MatchesAtEndAsWritten(value: string, hint: string): (r: Outcome<bool>)
    requires ReadablePattern(hint)
    ensures r.Threw? <==> |hint| > 0 && IsQuantifier(hint[0])
    ensures r.Returned? ==> (r.value <==> EndsWith(value, hint))
  {
    if |hint| > 0 && IsQuantifier(hint[0]) then Threw(SyntaxError) else Returned(EndsWith(value, hint))
  }

  /**
   * `normalizeParameterValue` as written: identical to `Normalize`, except
   * that the hint test compiles the hint as a regular expression.
   */
  function NormalizeAsWritten(p: DateParameter, ty: Option<string>, value: Option<string>,
                              convert: (string, string) -> string): (r: Outcome<Normalized>)
    requires TestsHint(p, ty, value) ==> ReadablePattern(p.timezoneHint.value)
    ensures r.Threw? <==> TestsHint(p, ty, value) && IsQuantifier(p.timezoneHint.value[0])
    ensures r.Returned? ==> r.value == Normalize(p, ty, value, convert)
  {
    if TestsHint(p, ty, value) then
      match MatchesAtEndAsWritten(value.value, p.timezoneHint.value)
      case Threw(e) => Threw(e)
      case Returned(_) => Returned(Normalize(p, ty, value, convert))
    else Returned(Normalize(p, ty, value, convert))
  }

  /**
   * A date parameter in a fixed zone east of UTC, whose hint is `+0100`:
   * the code as written throws a `SyntaxError`, while the value already
   * carries that offset and is meant to be returned unchanged.
   */
  lemma PositiveOffsetHintThrows(convert: (string, string) -> string)
    ensures var p := DateParameter(Some("Europe/Paris"), Some("+0100"));
      var v := Some("2003-01-01T00:00:00.000+0100");
      && NormalizeAsWritten(p, Some("java.util.Date"), v, convert) == Threw(SyntaxError)
      && Normalize(p, Some("java.util.Date"), v, convert) == Normalized(v, p)
  {
    var p := DateParameter(Some("Europe/Paris"), Some("+0100"));
    assert !IsJavaArrayType("java.util.Date");
    assert !IsBlank("+0100") by { assert !IsWhitespace("+0100"[1]); }
    assert EndsWith("2003-01-01T00:00:00.000+0100", "+0100");
  }
}

=== FILE: query_string.dfy ===
/**
 * `ReportViewer.getUrlParameters` and `getLocale`: the page's query string
 * is cut into `name=value` pairs by the regular expression
 * `([^&=]+)=?([^&]*)`, each half is decoded, and a name seen more than once
 * collects its values into an array.
 */
module QueryString {
  import opened Common
  import opened JsObject

  /** One match of the pair expression: the name group and the value group. */
  datatype Pair = Pair(name: string, val: string)

  predicate IsDelimiter(c: char)
  {
    c == '&' || c == '='
  }

  /** What the pair expression can produce: a non-empty name free of `&` and `=`, and a value free of `&`. */
  predicate WellFormed(p: Pair)
  {
    |p.name| > 0 && '&' !in p.name && '=' !in p.name && '&' !in p.val
  }

  /** The characters at which no match can start (`&` and `=`) are stepped over by the search. */
  function SkipDelimiters(q: string): (r: string)
    ensures |r| <= |q| && r == q[|q| - |r|..]
    ensures |r| > 0 ==> !IsDelimiter(r[0])
    ensures forall i :: 0 <= i < |q| - |r| ==> IsDelimiter(q[i])
  {
    if |q| > 0 && IsDelimiter(q[0]) then SkipDelimiters(q[1..]) else q
  }

  /** The greedy `[^&=]+` group: the longest prefix without `&` or `=`. */
  function NameRun(q: string): (r: string)
    ensures r <= q
    ensures '&' !in r && '=' !in r
    ensures |r| == |q| || IsDelimiter(q[|r|])
    ensures |q| > 0 && !IsDelimiter(q[0]) ==> |r| > 0
  {
    if |q| == 0 || IsDelimiter(q[0]) then "" else [q[0]] + NameRun(q[1..])
  }

  /** The greedy `[^&]*` group: the longest prefix without `&`. */
  function ValueRun(q: string): (r: string)
    ensures r <= q
    ensures '&' !in r
    ensures |r| == |q| || q[|r|] == '&'
  {
    if |q| == 0 || q[0] == '&' then "" else [q[0]] + ValueRun(q[1..])
  }

  /** One match of the pair expression and the text after it. */
  datatype Match = Match(pair: Pair, rest: string)

  /**
   * The match that starts where a name starts: the name, then the `=` if it
   * follows, then the value; a name without `=` has an empty value.
   */
  function FirstMatch(t: string): (m: Match)
    requires |t| > 0 && !IsDelimiter(t[0])
    ensures WellFormed(m.pair)
    ensures |m.rest| < |t|
  {
    var name := NameRun(t);
    var rest := t[|name|..];
    if |rest| > 0 && rest[0] == '=' then
      var val := ValueRun(rest[1..]);
      Match(Pair(name, val), rest[1 + |val|..])
    else
      Match(Pair(name, ""), rest)
  }

  /** The successive matches of `([^&=]+)=?([^&]*)` over the query. */
  function RawPairs(q: string): (ps: seq<Pair>)
    ensures forall i :: 0 <= i < |ps| ==> WellFormed(ps[i])
    decreases |q|
  {
    var t := SkipDelimiters(q);
    if |t| == 0 then []
    else
      var m := FirstMatch(t);
      assert |m.rest| < |q|;
      var tail := RawPairs(m.rest);
      var ps := [m.pair] + tail;
      assert forall i :: 0 <= i < |ps| ==> WellFormed(ps[i]) by {
        forall i | 0 <= i < |ps| ensures WellFormed(ps[i]) {
          if i > 0 { assert ps[i] == tail[i - 1]; }
        }
      }
      ps
  }

  /** The replacement of `/\+/g` by a space that precedes URI decoding. */
  function PlusToSpace(s: string): (r: string)
    ensures |r| == |s|
    ensures forall i :: 0 <= i < |s| ==> r[i] == (if s[i] == '+' then ' ' else s[i])
    ensures '+' !in r
  {
    if |s| == 0 then "" else [if s[0] == '+' then ' ' else s[0]] + PlusToSpace(s[1..])
  }

  /** A string without `+` is left alone by the replacement. */
  lemma {:induction false} PlusToSpaceIdentity(s: string)
    requires '+' !in s
    ensures PlusToSpace(s) == s
  {
    if |s| > 0 {
      PlusToSpaceIdentity(s[1..]);
    }
  }

  /** The local `decode` helper; `uriDecode` stands for `decodeURIComponent`. */
  function Decode(s: string, uriDecode: string -> string): (r: string)
    ensures '+' !in s ==> r == uriDecode(s)
    ensures r == uriDecode(seq(|s|, i requires 0 <= i < |s| => if s[i] == '+' then ' ' else s[i]))
  {
    assert PlusToSpace(s) == seq(|s|, i requires 0 <= i < |s| => if s[i] == '+' then ' ' else s[i]);
    assert '+' !in s ==> PlusToSpace(s) == s by {
      if '+' !in s { PlusToSpaceIdentity(s); }
    }
    uriDecode(PlusToSpace(s))
  }

  function DecodePairs(ps: seq<Pair>, uriDecode: string -> string): (r: seq<Pair>)
    ensures |r| == |ps|
    ensures forall i :: 0 <= i < |ps| ==> r[i] == Pair(Decode(ps[i].name, uriDecode), Decode(ps[i].val, uriDecode))
  {
    if |ps| == 0 then []
    else [Pair(Decode(ps[0].name, uriDecode), Decode(ps[0].val, uriDecode))] + DecodePairs(ps[1..], uriDecode)
  }

  /** The values given to `name`, in order of appearance. */
  function Occurrences(ps: seq<Pair>, name: string): seq<string>
  {
    if |ps| == 0 then []
    else
      var last := ps[|ps| - 1];
      Occurrences(ps[..|ps| - 1], name) + (if last.name == name then [last.val] else [])
  }

  lemma {:induction false} OccurrencesAppend(a: seq<Pair>, b: seq<Pair>, name: string)
    ensures Occurrences(a + b, name) == Occurrences(a, name) + Occurrences(b, name)
    decreases |b|
  {
    if |b| == 0 {
      assert a + b == a;
    } else {
      var b' := b[..|b| - 1];
      assert (a + b)[..|a + b| - 1] == a + b';
      assert (a + b)[|a + b| - 1] == b[|b| - 1];
      OccurrencesAppend(a, b', name);
    }
  }

  /** The value a name ends up with: absent, a string for one occurrence, an array for several. */
  function Collapse(vals: seq<string>): Value
  {
    if |vals| == 0 then Undefined
    else if |vals| == 1 then Str(vals[0])
    else List(vals)
  }

  /** The values a table entry stands for. */
  function ValuesOf(v: Value): seq<string>
  {
    match v
    case Str(s) => [s]
    case List(items) => items
    case _ => []
  }

  /** The shape of `urlParams`: each name bound to a string or to an array of at least two strings. */
  predicate IsParamTable(d: Dict<Value>)
  {
    && UniqueKeys(d)
    && forall e :: e in d ==> e.val.Str? || (e.val.List? && |e.val.items| >= 2)
  }

  /** One turn of the loop: a first value is stored as is, a repeated one turns the entry into an array. */
  function AddParam(d: Dict<Value>, name: string, val: string): (r: Dict<Value>)
    requires IsParamTable(d)
    ensures IsParamTable(r)
    ensures ValuesOf(Get(r, name)) == ValuesOf(Get(d, name)) + [val]
    ensures Get(r, name) == Collapse(ValuesOf(Get(r, name)))
    ensures forall k :: k != name ==> Lookup(r, k) == Lookup(d, k)
    ensures Keys(r) == Keys(d) + {name}
  {
    match Get(d, name)
    case Undefined => Put(d, name, Str(val))
    case Str(first) => Put(d, name, List([first, val]))
    case List(items) => Put(d, name, List(items + [val]))
    case Null => assert false; d
  }

  /** The table `getUrlParameters` builds: the decoded pairs added one by one, in query order. */
  function GroupPairs(ps: seq<Pair>): (d: Dict<Value>)
    ensures IsParamTable(d)
    ensures Keys(d) == Names(ps)
  {
    if |ps| == 0 then []
    else
      var prefix := ps[..|ps| - 1];
      NamesOfLast(ps);
      AddParam(GroupPairs(prefix), ps[|ps| - 1].name, ps[|ps| - 1].val)
  }

  /** The names that occur in a run of pairs. */
  function Names(ps: seq<Pair>): set<string>
  {
    set p | p in ps :: p.name
  }

  lemma NamesOfLast(ps: seq<Pair>)
    requires |ps| > 0
    ensures Names(ps) == Names(ps[..|ps| - 1]) + {ps[|ps| - 1].name}
  {
    assert ps == ps[..|ps| - 1] + [ps[|ps| - 1]];
  }

  /** A name maps to exactly the collapsed list of its values in order of appearance. */
  lemma {:induction false} GroupPairsSpec(ps: seq<Pair>, name: string)
    ensures Get(GroupPairs(ps), name) == Collapse(Occurrences(ps, name))
  {
    if |ps| > 0 {
      var prefix := ps[..|ps| - 1];
      var last := ps[|ps| - 1];
      var before := GroupPairs(prefix);
      GroupPairsSpec(prefix, name);
      if last.name == name {
        assert Occurrences(ps, name) == Occurrences(prefix, name) + [last.val];
        ValuesOfCollapse(Occurrences(prefix, name));
        assert ValuesOf(Get(before, name)) == Occurrences(prefix, name);
      } else {
        assert Occurrences(ps, name) == Occurrences(prefix, name);
        assert Lookup(GroupPairs(ps), name) == Lookup(before, name);
      }
    }
  }

  /** A collapsed list of values stands for exactly those values. */
  lemma ValuesOfCollapse(vals: seq<string>)
    ensures ValuesOf(Collapse(vals)) == vals
  {
  }

  /** The location's search string without its leading `?`. */
  function QueryOf(search: string): string
  {
    if |search| == 0 then "" else search[1..]
  }

  /** The decoded pairs of the page's query string. */
  function UrlPairs(search: string, uriDecode: string -> string): seq<Pair>
  {
    DecodePairs(RawPairs(QueryOf(search)), uriDecode)
  }

  /**
   * `getUrlParameters`: a name seen once maps to its value, a name seen
   * several times to the array of all its values in order of appearance.
   */
  function GetUrlParameters(search: string, uriDecode: string -> string): (d: Dict<Value>)
    ensures IsParamTable(d)
    ensures forall k :: |Occurrences(UrlPairs(search, uriDecode), k)| == 0 ==> Get(d, k) == Undefined
    ensures forall k :: (|Occurrences(UrlPairs(search, uriDecode), k)| == 1
      ==> Get(d, k) == Str(Occurrences(UrlPairs(search, uriDecode), k)[0]))
    ensures forall k :: (|Occurrences(UrlPairs(search, uriDecode), k)| > 1
      ==> Get(d, k) == List(Occurrences(UrlPairs(search, uriDecode), k)))
  {
    var ps := UrlPairs(search, uriDecode);
    forall k ensures Get(GroupPairs(ps), k) == Collapse(Occurrences(ps, k)) {
      GroupPairsSpec(ps, k);
    }
    GroupPairs(ps)
  }

  /**
   * `getLocale`: a `locale` string longer than two characters is cut to its
   * first two; any other value is returned as it is, except an array of more
   * than two values, which has no `substring` and makes the call throw.
   */
  function GetLocale(search: string, uriDecode: string -> string): (r: Outcome<Value>)
    ensures var vals := Occurrences(UrlPairs(search, uriDecode), "locale");
      && (|vals| == 0 ==> r == Returned(Undefined))
      && (|vals| == 1 ==> r.Returned? && r.value.Str? && r.value.s <= vals[0]
                          && |r.value.s| == (if |vals[0]| > 2 then 2 else |vals[0]|))
      && (|vals| == 2 ==> r == Returned(List(vals)))
      && (|vals| > 2 ==> r == Threw(TypeError))
  {
    GroupPairsSpec(UrlPairs(search, uriDecode), "locale");
    var locale := Get(GetUrlParameters(search, uriDecode), "locale");
    match locale
    case Str(s) => if |s| > 2 then Returned(Str(s[..2])) else Returned(locale)
    case List(items) => if |items| > 2 then Threw(TypeError) else Returned(locale)
    case _ => Returned(locale)
  }

  /** The text `name=value` of one pair. */
  function PairText(p: Pair): string
  {
    p.name + "=" + p.val
  }

  function PairTexts(ps: seq<Pair>): (r: seq<string>)
    ensures |r| == |ps|
    ensures forall i :: 0 <= i < |ps| ==> r[i] == PairText(ps[i])
  {
    if |ps| == 0 then [] else [PairText(ps[0])] + PairTexts(ps[1..])
  }

  /** `Array.prototype.join(sep)`. */
  function Join(parts: seq<string>, sep: string): string
  {
    if |parts| == 0 then ""
    else if |parts| == 1 then parts[0]
    else parts[0] + sep + Join(parts[1..], sep)
  }

  lemma {:induction false} NameRunOf(name: string, s: string)
    requires '&' !in name && '=' !in name
    requires |s| == 0 || IsDelimiter(s[0])
    ensures NameRun(name + s) == name
  {
    if |name| > 0 {
      assert (name + s)[1..] == name[1..] + s;
      NameRunOf(name[1..], s);
    } else {
      assert name + s == s;
    }
  }

  lemma {:induction false} ValueRunOf(val: string, s: string)
    requires '&' !in val
    requires |s| == 0 || s[0] == '&'
    ensures ValueRun(val + s) == val
  {
    if |val| > 0 {
      assert (val + s)[1..] == val[1..] + s;
      ValueRunOf(val[1..], s);
    } else {
      assert val + s == s;
    }
  }

  /** A pair followed by the rest of a query reads back as that pair and the rest. */
  lemma {:induction false} ParsePairText(p: Pair, rest: string)
    requires WellFormed(p)
    requires |rest| == 0 || rest[0] == '&'
    ensures RawPairs(PairText(p) + rest) == [p] + RawPairs(rest)
  {
    var q := PairText(p) + rest;
    var after := "=" + (p.val + rest);
    assert q == p.name + after;
    assert q[0] == p.name[0];
    var t := SkipDelimiters(q);
    assert t == q;
    NameRunOf(p.name, after);
    var name := NameRun(t);
    assert name == p.name;
    var r := t[|name|..];
    assert r == after;
    assert r[1..] == p.val + rest;
    ValueRunOf(p.val, rest);
    var v := ValueRun(r[1..]);
    assert v == p.val;
    assert r[1 + |v|..] == rest;
    assert FirstMatch(t) == Match(Pair(name, v), rest);
    assert RawPairs(q) == [Pair(name, v)] + RawPairs(r[1 + |v|..]);
  }

  lemma {:induction false} ParseSinglePair(p: Pair)
    requires WellFormed(p)
    ensures RawPairs(PairText(p)) == [p]
  {
    ParsePairText(p, "");
    assert PairText(p) + "" == PairText(p);
    assert SkipDelimiters("") == "";
  }

  /** A leading `&` is stepped over. */
  lemma {:induction false} RawPairsSkipsAmpersand(s: string)
    ensures RawPairs("&" + s) == RawPairs(s)
  {
    assert ("&" + s)[1..] == s;
    assert SkipDelimiters("&" + s) == SkipDelimiters(s);
  }

  /** The pairs written as `name=value` and joined with `&`. */
  function JoinedPairs(ps: seq<Pair>): string
  {
    if |ps| == 0 then ""
    else if |ps| == 1 then PairText(ps[0])
    else PairText(ps[0]) + ("&" + JoinedPairs(ps[1..]))
  }

  lemma {:induction false} JoinedPairsIsJoin(ps: seq<Pair>)
    ensures Join(PairTexts(ps), "&") == JoinedPairs(ps)
  {
    if |ps| == 1 {
      assert Join(PairTexts(ps), "&") == PairText(ps[0]);
    } else if |ps| > 1 {
      JoinPairTextsCons(ps);
      JoinedPairsIsJoin(ps[1..]);
    }
  }

  /**
   * Joining pairs with `&` and reading the result with the pair expression
   * gives back the same pairs, in order, as long as each pair is one the
   * expression can produce.
   */
  lemma ParseJoined(ps: seq<Pair>)
    requires forall i :: 0 <= i < |ps| ==> WellFormed(ps[i])
    ensures RawPairs(Join(PairTexts(ps), "&")) == ps
  {
    JoinedPairsIsJoin(ps);
    ParseJoinedPairs(ps);
  }

  lemma {:induction false} ParseJoinedPairs(ps: seq<Pair>)
    requires forall i :: 0 <= i < |ps| ==> WellFormed(ps[i])
    ensures RawPairs(JoinedPairs(ps)) == ps
  {
    if |ps| == 0 {
      assert SkipDelimiters("") == "";
    } else if |ps| == 1 {
      ParseSinglePair(ps[0]);
    } else {
      TailWellFormed(ps);
      ParseJoinedPairs(ps[1..]);
      ParseJoinedStep(ps);
    }
  }

  lemma TailWellFormed(ps: seq<Pair>)
    requires |ps| > 0
    requires forall i :: 0 <= i < |ps| ==> WellFormed(ps[i])
    ensures forall i :: 0 <= i < |ps[1..]| ==> WellFormed(ps[1..][i])
  {
    forall i | 0 <= i < |ps[1..]| ensures WellFormed(ps[1..][i]) { assert ps[1..][i] == ps[i + 1]; }
  }

  lemma ParseJoinedStep(ps: seq<Pair>)
    requires |ps| > 1 && WellFormed(ps[0])
    requires RawPairs(JoinedPairs(ps[1..])) == ps[1..]
    ensures RawPairs(JoinedPairs(ps)) == ps
  {
    var rest := ps[1..];
    assert JoinedPairs(ps) == PairText(ps[0]) + ("&" + JoinedPairs(rest));
    ParseJoinedCons(ps[0], JoinedPairs(rest));
    assert [ps[0]] + rest == ps;
  }

  lemma {:induction false} ParseJoinedCons(p: Pair, tail: string)
    requires WellFormed(p)
    ensures RawPairs(PairText(p) + ("&" + tail)) == [p] + RawPairs(tail)
  {
    ParsePairText(p, "&" + tail);
    RawPairsSkipsAmpersand(tail);
  }

  lemma {:induction false} JoinPairTextsCons(ps: seq<Pair>)
    requires |ps| > 1
    ensures Join(PairTexts(ps), "&") == PairText(ps[0]) + ("&" + Join(PairTexts(ps[1..]), "&"))
  {
    var texts := PairTexts(ps);
    assert texts[1..] == PairTexts(ps[1..]);
  }
}

=== FILE: report_url.dfy ===
/**
 * `ReportViewer._updateReport` and the option building of
 * `fetchParameterDefinition`: URL parameters merged with the prompt panel's
 * values, the render mode set, the session id dropped, and (for a report)
 * the result serialised into the frame's URL.
 */
module ReportUrl {
  import opened Common
  import opened JsObject
  import opened QueryString

  /** Generated by the server; never sent back. */
  const SessionKey: string := "::session"

  const ReportPath: string := "/pentaho/content/reporting?"

  /** Where `_updateReport` points the report frame. */
  datatype FrameSource = AboutBlank | ReportAt(url: string)

  /** The prompt panel as the option building sees it. */
  datatype PromptPanel = PromptPanel(values: Dict<Value>, allowAutoSubmit: bool)

  /** The value `name` gets: its own when set, otherwise whatever `action` holds. */
  function NameOrAction(urlParams: Dict<Value>, panelValues: Dict<Value>): Value
  {
    if Override(urlParams, panelValues, "name") != Undefined then Override(urlParams, panelValues, "name")
    else Override(urlParams, panelValues, "action")
  }

  /**
   * The options of `_updateReport`: panel values override URL parameters,
   * `renderMode` is the requested mode, `name` falls back to `action`, and
   * `::session` is gone.
   */
  function ReportOptions(urlParams: Dict<Value>, panelValues: Dict<Value>, renderMode: string): (o: Dict<Value>)
    requires UniqueKeys(urlParams) && UniqueKeys(panelValues)
    ensures UniqueKeys(o)
    ensures Lookup(o, SessionKey) == None
    ensures Get(o, "renderMode") == Str(renderMode)
    ensures Get(o, "name") == NameOrAction(urlParams, panelValues)
    ensures forall k :: (k != "renderMode" && k != "name" && k != SessionKey
      ==> Get(o, k) == Override(urlParams, panelValues, k))
    ensures forall k :: k in Keys(o) ==> k in Keys(urlParams) || k in Keys(panelValues) || k == "renderMode" || k == "name"
  {
    var withMode := MergedWithMode(urlParams, panelValues, renderMode);
    var named := WithName(withMode);
    var o := Remove(named, SessionKey);
    assert forall k :: (k != "renderMode" && k != "name" && k != SessionKey
      ==> Get(o, k) == Override(urlParams, panelValues, k)) by {
      forall k | k != "renderMode" && k != "name" && k != SessionKey
        ensures Get(o, k) == Override(urlParams, panelValues, k)
      {
        assert Lookup(o, k) == Lookup(named, k) == Lookup(withMode, k);
      }
    }
    assert forall k :: k in Keys(o) ==> k in Keys(urlParams) || k in Keys(panelValues) || k == "renderMode" || k == "name" by {
      forall k | k in Keys(o) && k != "name"
        ensures k in Keys(withMode)
      {
        assert Lookup(o, k) == Lookup(named, k) == Lookup(withMode, k);
      }
    }
    o
  }

  /** The URL parameters overridden by the panel's defined values, with the render mode set. */
  function MergedWithMode(urlParams: Dict<Value>, panelValues: Dict<Value>, renderMode: string): (d: Dict<Value>)
    requires UniqueKeys(urlParams) && UniqueKeys(panelValues)
    ensures UniqueKeys(d)
    ensures Get(d, "renderMode") == Str(renderMode)
    ensures forall k :: k != "renderMode" ==> Get(d, k) == Override(urlParams, panelValues, k)
    ensures forall k :: k in Keys(d) ==> k in Keys(urlParams) || k in Keys(panelValues) || k == "renderMode"
  {
    var merged := Extend(urlParams, panelValues);
    var d := Put(merged, "renderMode", Str(renderMode));
    assert forall k :: k != "renderMode" ==> Get(d, k) == Override(urlParams, panelValues, k) by {
      forall k | k != "renderMode" ensures Get(d, k) == Override(urlParams, panelValues, k) {
        assert Lookup(d, k) == Lookup(merged, k);
      }
    }
    d
  }

  /** A report without a `name` is named after its `action`. */
  function WithName(d: Dict<Value>): (r: Dict<Value>)
    requires UniqueKeys(d)
    ensures UniqueKeys(r)
    ensures Get(r, "name") == if Get(d, "name") != Undefined then Get(d, "name") else Get(d, "action")
    ensures forall k :: k != "name" ==> Lookup(r, k) == Lookup(d, k)
    ensures Keys(r) <= Keys(d) + {"name"}
  {
    if Get(d, "name") == Undefined then Put(d, "name", Get(d, "action")) else d
  }

  /**
   * The options posted by `fetchParameterDefinition`: the panel's values (when
   * there is a panel) override URL parameters, `renderMode` is `XML`, or
   * `PARAMETER` for user input that may not auto-submit, and `::session` is
   * gone. Asking for user input without a panel dereferences `undefined`.
   */
  function ParameterRequestOptions(urlParams: Dict<Value>, panel: Option<PromptPanel>, mode: Option<string>)
    : (r: Outcome<Dict<Value>>)
    requires UniqueKeys(urlParams)
    requires panel.Some? ==> UniqueKeys(panel.value.values)
    ensures r.Threw? <==> mode == Some("USERINPUT") && panel.None?
    ensures r.Returned? ==> UniqueKeys(r.value) && Lookup(r.value, SessionKey) == None
    ensures r.Returned? ==> (Get(r.value, "renderMode")
      == Str(if mode == Some("USERINPUT") && panel.Some? && !panel.value.allowAutoSubmit then "PARAMETER" else "XML"))
    ensures r.Returned? ==> forall k :: (k != "renderMode" && k != SessionKey
      ==> Get(r.value, k) == (if panel.Some? then Override(urlParams, panel.value.values, k) else Get(urlParams, k)))
  {
    var options := match panel
      case Some(p) => Extend(urlParams, p.values)
      case None => urlParams;
    var asXml := Put(options, "renderMode", Str("XML"));
    if mode == Some("USERINPUT") && panel.None? then Threw(TypeError)
    else
      var withMode := if mode == Some("USERINPUT") && !panel.value.allowAutoSubmit
        then Put(asXml, "renderMode", Str("PARAMETER")) else asXml;
      Returned(Remove(withMode, SessionKey))
  }

  /** The strings a value stands for in the URL, before empty ones are dropped. */
  function NonEmpty(vals: seq<string>): (r: seq<string>)
    ensures forall v :: v in r ==> |v| > 0 && v in vals
  {
    if |vals| == 0 then []
    else (if |vals[0]| > 0 then [vals[0]] else []) + NonEmpty(vals[1..])
  }

  /** `addParam` over the elements of an array, in order. */
  function ItemPairs(key: string, items: seq<string>): (ps: seq<Pair>)
    ensures forall i :: 0 <= i < |ps| ==> ps[i].name == key && |ps[i].val| > 0
  {
    if |items| == 0 then []
    else (if |items[0]| > 0 then [Pair(key, items[0])] else []) + ItemPairs(key, items[1..])
  }

  /** The pairs one property contributes: none for `null` or `undefined`, one per non-empty string. */
  function EntryPairs(e: Entry<Value>): (ps: seq<Pair>)
    ensures forall i :: 0 <= i < |ps| ==> ps[i].name == e.key && |ps[i].val| > 0
  {
    match e.val
    case Undefined => []
    case Null => []
    case Str(s) => if |s| > 0 then [Pair(e.key, s)] else []
    case List(items) => ItemPairs(e.key, items)
  }

  /** The `$.each(options, …)` loop: the unencoded pairs, property by property. */
  function QueryPairs(d: Dict<Value>): (ps: seq<Pair>)
    ensures forall i :: 0 <= i < |ps| ==> |ps[i].val| > 0 && ps[i].name in Keys(d)
  {
    if |d| == 0 then [] else EntryPairs(d[0]) + QueryPairs(d[1..])
  }

  /** `encodeURIComponent` applied to both halves of every pair. */
  function EncodePairs(ps: seq<Pair>, encode: string -> string): (r: seq<Pair>)
    ensures |r| == |ps|
    ensures forall i :: 0 <= i < |ps| ==> r[i] == Pair(encode(ps[i].name), encode(ps[i].val))
  {
    if |ps| == 0 then [] else [Pair(encode(ps[0].name), encode(ps[0].val))] + EncodePairs(ps[1..], encode)
  }

  /** The query of the report URL: the encoded pairs written as `name=value` and separated by `&`. */
  function QueryText(d: Dict<Value>, encode: string -> string): (q: string)
    ensures q == "" <==> |QueryPairs(d)| == 0
  {
    Join(PairTexts(EncodePairs(QueryPairs(d), encode)), "&")
  }

  /** `_updateReport`: nothing but a blank frame while a prompt is needed, otherwise the report URL. */
  function UpdateReport(promptNeeded: bool, urlParams: Dict<Value>, panelValues: Dict<Value>,
                        renderMode: string, encode: string -> string): (r: FrameSource)
    requires UniqueKeys(urlParams) && UniqueKeys(panelValues)
    ensures r.AboutBlank? <==> promptNeeded
    ensures r.ReportAt? ==> ReportPath <= r.url
  {
    if promptNeeded then AboutBlank
    else ReportAt(ReportPath + QueryText(ReportOptions(urlParams, panelValues, renderMode), encode))
  }

  /** `submitReport`: the report itself. */
  function SubmitReport(promptNeeded: bool, urlParams: Dict<Value>, panelValues: Dict<Value>,
                        encode: string -> string): (r: FrameSource)
    requires UniqueKeys(urlParams) && UniqueKeys(panelValues)
    ensures r.ReportAt? <==> !promptNeeded
  {
    UpdateReport(promptNeeded, urlParams, panelValues, "REPORT", encode)
  }

  /** `scheduleReport`: the same URL, asking for the subscription page. */
  function ScheduleReport(promptNeeded: bool, urlParams: Dict<Value>, panelValues: Dict<Value>,
                          encode: string -> string): (r: FrameSource)
    requires UniqueKeys(urlParams) && UniqueKeys(panelValues)
    ensures r.ReportAt? <==> !promptNeeded
  {
    UpdateReport(promptNeeded, urlParams, panelValues, "SUBSCRIBE", encode)
  }

  lemma OccurrencesSingle(p: Pair, k: string)
    ensures Occurrences([p], k) == if p.name == k then [p.val] else []
  {
    assert [p][..0] == [];
  }

  lemma {:induction false} ItemPairsOccurrences(key: string, items: seq<string>, k: string)
    ensures Occurrences(ItemPairs(key, items), k) == if key == k then NonEmpty(items) else []
  {
    if |items| > 0 {
      var head := if |items[0]| > 0 then [Pair(key, items[0])] else [];
      var tail := ItemPairs(key, items[1..]);
      assert ItemPairs(key, items) == head + tail;
      OccurrencesAppend(head, tail, k);
      ItemPairsOccurrences(key, items[1..], k);
      if |items[0]| > 0 {
        OccurrencesSingle(Pair(key, items[0]), k);
      }
    }
  }

  lemma EntryPairsOccurrences(e: Entry<Value>, k: string)
    ensures Occurrences(EntryPairs(e), k) == if e.key == k then NonEmpty(ValuesOf(e.val)) else []
  {
    match e.val
    case List(items) => ItemPairsOccurrences(e.key, items, k);
    case Str(s) => OccurrencesSingle(Pair(e.key, s), k);
    case _ =>
  }

  /**
   * The serialisation, read by name: the values emitted for a property are
   * exactly its non-empty strings, in order.
   */
  lemma {:induction false} QueryPairsForKey(d: Dict<Value>, k: string)
    requires UniqueKeys(d)
    ensures Occurrences(QueryPairs(d), k) == NonEmpty(ValuesOf(Get(d, k)))
  {
    if |d| > 0 {
      OccurrencesAppend(EntryPairs(d[0]), QueryPairs(d[1..]), k);
      EntryPairsOccurrences(d[0], k);
      QueryPairsForKey(d[1..], k);
      if d[0].key == k {
        assert Get(d[1..], k) == Undefined;
      }
    }
  }

  /**
   * What the model relies on from `encodeURIComponent` and
   * `decodeURIComponent`: the encoding never produces `&`, `=` or `+`, keeps
   * a string empty exactly when it was empty, and is undone by decoding.
   */
  ghost predicate UriCodec(encode: string -> string, decode: string -> string)
  {
    forall s :: && '&' !in encode(s) && '=' !in encode(s) && '+' !in encode(s)
                && (|encode(s)| > 0 <==> |s| > 0)
                && decode(encode(s)) == s
  }

  ghost predicate NonEmptyKeys(d: Dict<Value>)
  {
    forall k :: k in Keys(d) ==> |k| > 0
  }

  lemma {:induction false} DecodeEncoded(ps: seq<Pair>, encode: string -> string, decode: string -> string)
    requires UriCodec(encode, decode)
    ensures DecodePairs(EncodePairs(ps, encode), decode) == ps
  {
  }

  /**
   * The query `_updateReport` builds, read back through `getUrlParameters`,
   * gives every property its non-empty values: one as a string, several as
   * an array, none as absent.
   */
  lemma QueryReadsBack(d: Dict<Value>, encode: string -> string, decode: string -> string, k: string)
    requires UniqueKeys(d) && NonEmptyKeys(d)
    requires UriCodec(encode, decode)
    ensures Get(GetUrlParameters("?" + QueryText(d, encode), decode), k) == Collapse(NonEmpty(ValuesOf(Get(d, k))))
  {
    var search := "?" + QueryText(d, encode);
    UrlPairsOfQuery(d, encode, decode);
    assert GetUrlParameters(search, decode) == GroupPairs(QueryPairs(d));
    GroupPairsSpec(QueryPairs(d), k);
    QueryPairsForKey(d, k);
  }

  /** The pairs `getUrlParameters` reads from the query are the pairs it was built from. */
  lemma UrlPairsOfQuery(d: Dict<Value>, encode: string -> string, decode: string -> string)
    requires NonEmptyKeys(d)
    requires UriCodec(encode, decode)
    ensures UrlPairs("?" + QueryText(d, encode), decode) == QueryPairs(d)
  {
    var ps := QueryPairs(d);
    var encoded := EncodePairs(ps, encode);
    EncodedWellFormed(ps, encode, decode);
    ParseJoined(encoded);
    assert QueryOf("?" + QueryText(d, encode)) == QueryText(d, encode);
    DecodeEncoded(ps, encode, decode);
  }

  /** Encoded pairs with non-empty names are pairs the pair expression can produce. */
  lemma EncodedWellFormed(ps: seq<Pair>, encode: string -> string, decode: string -> string)
    requires forall i :: 0 <= i < |ps| ==> |ps[i].name| > 0
    requires UriCodec(encode, decode)
    ensures forall i :: 0 <= i < |ps| ==> WellFormed(EncodePairs(ps, encode)[i])
  {
    var encoded := EncodePairs(ps, encode);
    forall i | 0 <= i < |ps| ensures WellFormed(encoded[i]) {
      assert encoded[i] == Pair(encode(ps[i].name), encode(ps[i].val));
    }
  }

  /** The query of the report URL is the serialised merged options. */
  lemma ReportQueryText(urlParams: Dict<Value>, panelValues: Dict<Value>, renderMode: string, encode: string -> string)
    requires UniqueKeys(urlParams) && UniqueKeys(panelValues)
    ensures var r := UpdateReport(false, urlParams, panelValues, renderMode, encode);
      r.url[|ReportPath|..] == QueryText(ReportOptions(urlParams, panelValues, renderMode), encode)
  {
    var q := QueryText(ReportOptions(urlParams, panelValues, renderMode), encode);
    assert (ReportPath + q)[|ReportPath|..] == q;
  }

  /** The merged options name no property with the empty name when neither source does. */
  lemma OptionKeysNonEmpty(urlParams: Dict<Value>, panelValues: Dict<Value>, renderMode: string)
    requires UniqueKeys(urlParams) && UniqueKeys(panelValues)
    requires NonEmptyKeys(urlParams) && NonEmptyKeys(panelValues)
    ensures NonEmptyKeys(ReportOptions(urlParams, panelValues, renderMode))
  {
  }

  /**
   * For non-empty property names, the report URL carries the merged
   * options: read back by name, each option yields its non-empty values.
   */
  lemma ReportUrlReadsBack(urlParams: Dict<Value>, panelValues: Dict<Value>, renderMode: string,
                           encode: string -> string, decode: string -> string, k: string)
    requires UniqueKeys(urlParams) && UniqueKeys(panelValues)
    requires NonEmptyKeys(urlParams) && NonEmptyKeys(panelValues)
    requires UriCodec(encode, decode)
    ensures var r := UpdateReport(false, urlParams, panelValues, renderMode, encode);
      var back := GetUrlParameters("?" + r.url[|ReportPath|..], decode);
      && Get(back, k) == Collapse(NonEmpty(ValuesOf(Get(ReportOptions(urlParams, panelValues, renderMode), k))))
  {
    var o := ReportOptions(urlParams, panelValues, renderMode);
    ReportQueryText(urlParams, panelValues, renderMode, encode);
    OptionKeysNonEmpty(urlParams, panelValues, renderMode);
    QueryReadsBack(o, encode, decode, k);
  }

  /** For non-empty property names, `::session` never reaches the report URL. */
  lemma SessionNeverSent(urlParams: Dict<Value>, panelValues: Dict<Value>, renderMode: string,
                         encode: string -> string, decode: string -> string)
    requires UniqueKeys(urlParams) && UniqueKeys(panelValues)
    requires NonEmptyKeys(urlParams) && NonEmptyKeys(panelValues)
    requires UriCodec(encode, decode)
    ensures var r := UpdateReport(false, urlParams, panelValues, renderMode, encode);
      Get(GetUrlParameters("?" + r.url[|ReportPath|..], decode), SessionKey) == Undefined
  {
    ReportUrlReadsBack(urlParams, panelValues, renderMode, encode, decode, SessionKey);
    assert Get(ReportOptions(urlParams, panelValues, renderMode), SessionKey) == Undefined;
  }

  /** For non-empty property names, a non-empty render mode reaches the report URL unchanged. */
  lemma RenderModeSent(urlParams: Dict<Value>, panelValues: Dict<Value>, renderMode: string,
                       encode: string -> string, decode: string -> string)
    requires UniqueKeys(urlParams) && UniqueKeys(panelValues)
    requires NonEmptyKeys(urlParams) && NonEmptyKeys(panelValues)
    requires UriCodec(encode, decode)
    requires |renderMode| > 0
    ensures var r := UpdateReport(false, urlParams, panelValues, renderMode, encode);
      Get(GetUrlParameters("?" + r.url[|ReportPath|..], decode), "renderMode") == Str(renderMode)
  {
    var o := ReportOptions(urlParams, panelValues, renderMode);
    ReportQueryText(urlParams, panelValues, renderMode, encode);
    OptionKeysNonEmpty(urlParams, panelValues, renderMode);
    StringReadsBack(o, encode, decode, "renderMode", renderMode);
  }

  /** A property bound to a non-empty string reads back as that string. */
  lemma StringReadsBack(d: Dict<Value>, encode: string -> string, decode: string -> string, k: string, v: string)
    requires UniqueKeys(d) && NonEmptyKeys(d)
    requires UriCodec(encode, decode)
    requires Get(d, k) == Str(v) && |v| > 0
    ensures Get(GetUrlParameters("?" + QueryText(d, encode), decode), k) == Str(v)
  {
    QueryReadsBack(d, encode, decode, k);
    assert [v][1..] == [];
    assert NonEmpty([v]) == [v];
  }

  /** A submitted report asks the server for `renderMode=REPORT`; a scheduled one for `SUBSCRIBE`. */
  lemma SubmitAndScheduleModes(urlParams: Dict<Value>, panelValues: Dict<Value>,
                               encode: string -> string, decode: string -> string)
    requires UniqueKeys(urlParams) && UniqueKeys(panelValues)
    requires NonEmptyKeys(urlParams) && NonEmptyKeys(panelValues)
    requires UriCodec(encode, decode)
    ensures var r := SubmitReport(false, urlParams, panelValues, encode);
      Get(GetUrlParameters("?" + r.url[|ReportPath|..], decode), "renderMode") == Str("REPORT")
    ensures var r := ScheduleReport(false, urlParams, panelValues, encode);
      Get(GetUrlParameters("?" + r.url[|ReportPath|..], decode), "renderMode") == Str("SUBSCRIBE")
  {
    RenderModeSent(urlParams, panelValues, "REPORT", encode, decode);
    RenderModeSent(urlParams, panelValues, "SUBSCRIBE", encode, decode);
  }

  /** The escape of one character by a minimal URI encoder: only `%`, `&`, `+` and `=` are escaped. */
  function EscapeChar(c: char): (r: string)
    ensures |r| > 0
    ensures forall i :: 0 <= i < |r| ==> r[i] != '&' && r[i] != '=' && r[i] != '+'
  {
    if c == '%' then "%25"
    else if c == '&' then "%26"
    else if c == '+' then "%2B"
    else if c == '=' then "%3D"
    else [c]
  }

  function PercentEscape(s: string): (r: string)
    ensures |r| >= |s|
    ensures forall i :: 0 <= i < |r| ==> r[i] != '&' && r[i] != '=' && r[i] != '+'
  {
    if |s| == 0 then "" else EscapeChar(s[0]) + PercentEscape(s[1..])
  }

  function PercentUnescape(s: string): string
  {
    if |s| >= 3 && s[..3] == "%25" then "%" + PercentUnescape(s[3..])
    else if |s| >= 3 && s[..3] == "%26" then "&" + PercentUnescape(s[3..])
    else if |s| >= 3 && s[..3] == "%2B" then "+" + PercentUnescape(s[3..])
    else if |s| >= 3 && s[..3] == "%3D" then "=" + PercentUnescape(s[3..])
    else if |s| == 0 then ""
    else [s[0]] + PercentUnescape(s[1..])
  }

  lemma UnescapeOne(c: char, rest: string)
    ensures PercentUnescape(EscapeChar(c) + rest) == [c] + PercentUnescape(rest)
  {
    if c == '%' || c == '&' || c == '+' || c == '=' {
      var e := EscapeChar(c) + rest;
      assert e[..3] == EscapeChar(c) && e[3..] == rest;
    } else {
      UnescapePlain(c, rest);
    }
  }

  /** A character other than `%` stands for itself. */
  lemma UnescapePlain(c: char, rest: string)
    requires c != '%'
    ensures PercentUnescape([c] + rest) == [c] + PercentUnescape(rest)
  {
    var e := [c] + rest;
    if |e| >= 3 {
      assert e[..3][0] == c;
    }
    assert e[1..] == rest;
  }

  lemma {:induction false} UnescapeEscaped(s: string)
    ensures PercentUnescape(PercentEscape(s)) == s
  {
    if |s| > 0 {
      UnescapeOne(s[0], PercentEscape(s[1..]));
      UnescapeEscaped(s[1..]);
      assert [s[0]] + s[1..] == s;
    }
  }

  /** The assumptions on the URI codec can all be met at once: the minimal encoder above meets them. */
  lemma UriCodecConsistent()
    ensures UriCodec(PercentEscape, PercentUnescape)
  {
    forall s ensures PercentUnescape(PercentEscape(s)) == s {
      UnescapeEscaped(s);
    }
  }
}
